=== FILE: README.md ===
# Car-wash booking admin and ration-card forms: a Dafny model

This project models the logic inside a small browser-and-PHP demo.

**The admin dashboard (`admin.js`).** It keeps an in-memory list of car-wash bookings. Each time the table is shown, it:
1. filters the list by status, by a case-insensitive search over five fields, or by a date;
2. sorts it by a clicked column, or newest first;
3. slices out one page of ten rows;
4. builds the pagination bar.

Around that pipeline sit small pieces of state logic:
- the header-click sort toggle;
- the reset to page 1 on every filter change;
- the `changePage` guard;
- the status buttons offered per booking;
- the local status update;
- the statistics cards;
- `addNewBooking`, which merges bookings arriving from the public site and fills absent fields with defaults;
- the two-second poll of the shared mailbox slot.

**The public site (`script.js`).** Its form code:
- strips non-digits from the Aadhar, mobile and phone inputs and truncates them;
- checks the Aadhar, mobile, contact-phone and email formats on submit;
- formats the application id.

**The PHP back end (`database.php`).** `Database::searchBookings` builds a parameterised query: the SQL, the `bind_param` type string and the bound values. The POST handler dispatches on `action`.

Modules, one per file:

| module | what it holds |
|---|---|
| `Strings` | ASCII lowercasing, substring search, lexicographic order, decimal text, padding |
| `Bookings` | the booking record, status, date, the sort-key order |
| `Sorting` | a stable insertion sort standing for `Array.prototype.sort` |
| `ListView` | the view state, filter, arrange, page slice, visible page |
| `Pagination` | the control-token list |
| `Dashboard` | view transitions, status actions, local update, statistics |
| `BookingFeed` | `addNewBooking` and the poll step |
| `FormInput` | sanitisers, submit checks, email pattern, application id |
| `RequestHandler` | the query builder and the POST dispatch |

Modelling choices:
- Dates are `(year, month, day)` values compared field by field, as `YYYY-MM-DD` strings compare.
- `createdAt` is an integer timestamp.
- String `<` is lexicographic order on characters.
- `toLowerCase` is ASCII lowercasing.
- The sort is stable.
- SQL statements are lists of literal text and `?` placeholder pieces. `RequestHandler.Render` spells out the text.

Where the code and its informal description differ, the model follows the code:
- **Search and date filters.** The dashboard's search term, when present, decides the row on its own. A date filter set at the same time is ignored (`ListView.SearchShadowsDate`).
- **The page guard.** `changePage` bounds the page by the page count of the *unfiltered* list. A filtered view can therefore be moved past its last page and then shows no rows (`Dashboard.ChangePagePastFilteredEnd`).
- **Merging a booking more than once.** `addNewBooking` recognises a repeat by the payload's own id. It is idempotent only for payloads that carry a non-empty id. A payload without one is appended again on each delivery (`BookingFeed.AddWithoutIdRepeats`).
- **PHP `empty()`.** `empty("0")` is true in PHP, so a search term `"0"` or a date `"0"` adds no clause (`RequestHandler.ZeroTermCountsAsEmpty`, `RequestHandler.ZeroDateCountsAsEmpty`).

## Model

| member | source | states |
|---|---|---|
| Strings.Lower | admin.js:181-187 | lowercasing keeps the length and every character that is not an upper-case letter; each upper-case letter becomes its own lower-case partner, so the search compares without regard to case |
| Strings.LowerIdempotent | admin.js:181-187 | lowercasing an already lowercased string changes nothing |
| Strings.ContainsIffOccurs | admin.js:183-187 | `includes` holds exactly when the needle occurs at some index of the haystack |
| Strings.StrLessIrreflexive | admin.js:210-211 | no string is `<` itself |
| Strings.StrLessTransitive | admin.js:210-211 | string `<` is transitive |
| Strings.StrLessTotal | admin.js:210-211 | of two different strings one is `<` the other |
| Strings.DecimalString | script.js:92 | `toString` of a number is a non-empty digit string without a leading zero |
| Strings.DecimalRoundTrip | script.js:92 | reading the decimal text back gives the number |
| Strings.DecimalLength | script.js:92 | a number below 10^k has at most k digits |
| Strings.PadStart | script.js:92 | `padStart`: the length is the larger of width and input length, the input is the suffix, the rest is fill |
| Strings.ZeroPadValue | script.js:92 | padding a digit string with zeros keeps it a digit string of the same value |
| Strings.LastChars | admin.js:676 | `slice(-k)`: the last min(k, length) characters |
| Bookings.KeyLessIrreflexive | admin.js:200-211 | no sort key compares below itself |
| Bookings.KeyLessTransitive | admin.js:200-211 | key order is transitive |
| Bookings.KeyLessTotal | admin.js:200-211 | any two different keys are ordered one way |
| Bookings.KeyNotLessTransitive | admin.js:200-211 | "not below" is transitive, so equal keys form classes |
| Bookings.IndexOfId | admin.js:303 | `find` by id: the first record with that id; none exactly when no record has it |
| Sorting.BeforeAsymmetric | admin.js:207-211 | the comparator never puts each of two bookings before the other |
| Sorting.NotBeforeTransitive | admin.js:207-211 | "not before" is transitive for ascending and descending order |
| Sorting.EqualKeysNotBefore | admin.js:207-211 | bookings with equal keys compare as 0 |
| Sorting.InsertPermutes | admin.js:202-212 | inserting adds exactly that booking to the multiset |
| Sorting.InsertSorted | admin.js:202-212 | inserting into a sorted list keeps it sorted |
| Sorting.SortPermutes | admin.js:202-216 | sorting is a permutation of its input |
| Sorting.SortSorts | admin.js:202-216 | the sorted list is ordered by the comparator |
| Sorting.SortLength | admin.js:202-216 | sorting keeps the length |
| Sorting.InsertWithKey | admin.js:202-216 | insertion keeps the relative order of bookings with equal keys |
| Sorting.SortStable | admin.js:202-216 | the sort is stable: bookings with equal keys keep their input order |
| ListView.FilterMultiplicity | admin.js:173-197 | a booking appears as often as in the input when kept, otherwise not at all |
| ListView.FilterMembership | admin.js:173-197 | a booking is in the filtered list exactly when it is in the input and passes the filter |
| ListView.FilterAppend | admin.js:173-197 | filtering a concatenation filters each part and keeps the order |
| ListView.FilterLength | admin.js:173-197 | filtering never lengthens the list |
| ListView.StatusFilterHolds | admin.js:175-177 | with a status filter set, every kept booking has that status |
| ListView.SearchKeepsIff | admin.js:180-189 | with a search term, a booking is kept exactly when it is in the input, passes the status filter, and one of its five lowercased fields contains the lowercased term |
| ListView.SearchShadowsDate | admin.js:180-194 | with a search term, the date filter does not change the result |
| ListView.FilterIgnoresPage | admin.js:173-197 | the filtered list does not depend on the current page |
| ListView.DateFilterHolds | admin.js:191-194 | with no search term and a date filter, every kept booking is on that date |
| ListView.ArrangeIsSortedFilter | admin.js:200-217 | the arranged list is a permutation of the filtered list, ascending or descending by the chosen column, otherwise with `createdAt` non-increasing |
| ListView.TotalPages | admin.js:221 | `ceil(n / size)`: the least page count whose pages hold n items |
| ListView.PageStartBounds | admin.js:221-222 | a page is past the last page exactly when its start index is at or past the end |
| ListView.PageSlice | admin.js:222-224 | the page holds at most `size` items, item i being `s[start + i]`; it is empty exactly past the last page and otherwise holds min(size, remaining) items |
| ListView.RowOnItsPage | admin.js:220-224 | every item lies on page `i / size + 1`, at offset `i % size` |
| ListView.ComputeVisiblePage | admin.js:173-224 | the table shows the arranged filtered list from `(page-1)*10` on, as many rows as a full page or the rest of the list holds; the counts cover the filtered list; the table is empty exactly when the current page is past the last one |
| Pagination.PageItems | admin.js:443-454 | the loop over page numbers yields numbered buttons exactly for page 1, the last page and the neighbours of the current page, ellipses exactly for skipped pages two away, the active flag on the current page, labels increasing |
| Pagination.RenderPagination | admin.js:426-464 | no controls for one page or fewer; otherwise previous first (disabled exactly on page 1) and next last (disabled exactly on the last page), numbered buttons exactly for page 1, the last page and the pages next to the current one, ellipses exactly for the skipped pages two away, the active button on the current page, labels increasing |
| Dashboard.SortTable | admin.js:415-423 | clicking the sort column reverses the direction; another column becomes the sort column, ascending; nothing else changes |
| Dashboard.SortTableTwice | admin.js:415-423 | two clicks on the sort column restore the view; two clicks on another column leave it sorted descending by that column |
| Dashboard.SortTableOrdersByColumn | admin.js:415-423 | a header click makes the clicked column the effective sort key, replacing the default newest-first order; the table is then ordered by it (the ordering itself comes from `ListView.ArrangeIsSortedFilter`) |
| Dashboard.FilterByStatus | admin.js:387-390 | sets the status filter and returns to page 1; nothing else changes |
| Dashboard.SearchFor | admin.js:401-405 | sets the search term and returns to page 1; nothing else changes |
| Dashboard.FilterByDate | admin.js:408-412 | sets the date filter and returns to page 1; nothing else changes |
| Dashboard.FirstPageShowsFirstRows | admin.js:387-412 | on page 1 the table shows the first rows of the arranged list, and it is empty only when nothing passes the filter |
| Dashboard.ChangePage | admin.js:467-473 | a page within the unfiltered page count becomes current; any other request changes nothing |
| Dashboard.ChangePageWithinWholeList | admin.js:467-473 | the current page stays within the page count of the whole list |
| Dashboard.ChangePagePastFilteredEnd | admin.js:467-473 | a filtered view accepts a page past its own last page, and then shows no rows |
| Dashboard.RenderBookings | admin.js:218-264 | the table shows the visible page; an empty page clears the pagination bar, otherwise the bar is the one for the filtered page count and current page, so an enabled previous or next button always leads to a page that exists |
| Dashboard.ActionTargets | admin.js:267-291 | the offered targets are exactly the allowed transitions from the status, each offered once: confirm or cancel when pending, complete or cancel when confirmed, none otherwise; cancel is last |
| Dashboard.UpdateLocalStatus | admin.js:295-322 | the first record with the id, and no other, gets the new status; only statuses change; an unknown id leaves the list unchanged |
| Dashboard.UpdateTouchesOnlyThatRecord | admin.js:303-306 | with unique ids exactly the record with the id changes, only in its status, and ids stay unique |
| Dashboard.Statistics | admin.js:155-159 | the total is the list length; each card counts the rows its status filter lists; the three cards plus the cancelled count make up the total |
| Dashboard.CountsPartition | admin.js:155-159 | every booking is counted in exactly one status |
| Dashboard.CountMatchesFilter | admin.js:155-159 | a card's count equals the number of rows its status filter lists |
| Dashboard.CountAfterReplace | admin.js:155-159 | replacing one record moves one unit from its old status count to the new one |
| Dashboard.UpdateShiftsCounts | admin.js:303-307 | a status update moves one booking from its old status count to the new one |
| BookingFeed.OrElse | admin.js:675-686 | JavaScript `or` on a field: a present non-empty value is kept, otherwise the fallback |
| BookingFeed.GeneratedId | admin.js:676 | a generated id is `BK` followed by the last six (or fewer) digits of the timestamp |
| BookingFeed.Complete | admin.js:675-686 | each present field is kept and each absent one gets its fixed default |
| BookingFeed.CompleteRoundTrip | admin.js:675-686 | a payload carrying every field of a record, none of the defaulted ones empty, completes to exactly that record whatever the clock says |
| BookingFeed.AddNewBooking | admin.js:666-702 | a payload whose id is listed changes nothing; otherwise exactly the completed record is appended and its id returned |
| BookingFeed.AddIsIdempotent | admin.js:668-672 | a payload with a non-empty id merged twice is merged once |
| BookingFeed.AddWithoutIdRepeats | admin.js:668-676 | a payload without an id is appended on every delivery |
| BookingFeed.AddKeepsIdsUnique | admin.js:666-689 | merging a payload with a non-empty id keeps ids unique |
| BookingFeed.Poll | admin.js:720-731 | a poll merges a parsed payload as `addNewBooking` does and clears the slot; an empty slot, or content on which `JSON.parse` or the read of `id` throws, leaves everything as it was |
| BookingFeed.UnreadableSlotStays | admin.js:722-729 | content that `JSON.parse` rejects or that parses to `null` is never removed, however many ticks pass, and the list does not change |
| BookingFeed.PollTwiceIsPollOnce | admin.js:720-731 | polling twice is polling once, whatever the slot held |
| BookingFeed.ThreeChannelsMergeOnce | admin.js:705-731 | one booking delivered by storage event, window message and poll is listed once |
| FormInput.Digits | script.js:289 | removing non-digits leaves only digits and never lengthens |
| FormInput.DigitsCounts | script.js:289 | every digit of the input is kept as often as it occurs, and no other character survives |
| FormInput.DigitsOfDigits | script.js:289 | a digit string is its own digit filter |
| FormInput.DigitsAppend | script.js:289 | the digit filter works piecewise, keeping digit order |
| FormInput.KeepDigits | script.js:288-298 | the sanitiser's output is the first min(n, digit count) digits of the input, in order |
| FormInput.KeepDigitsIdempotent | script.js:289 | sanitising twice is sanitising once |
| FormInput.KeepDigitsFixesDigitStrings | script.js:289 | a digit string no longer than the limit passes unchanged |
| FormInput.MatchesDigitRun | script.js:86 | `/^\d{n}$/` accepts exactly the strings of n decimal digits |
| FormInput.ValidAadhar | script.js:86 | the Aadhar check accepts exactly 12 decimal digits |
| FormInput.ValidMobile | script.js:118 | the mobile check accepts exactly 10 decimal digits |
| FormInput.ValidContactPhone | script.js:172 | the contact phone is accepted when empty, otherwise only as exactly 10 digits |
| FormInput.FilteredAadharValidIff | script.js:288-290 | after the input filter the Aadhar check passes exactly when at least 12 digits were typed |
| FormInput.FilteredPhoneValidIff | script.js:296-298 | after the input filter the contact phone passes exactly when no digit or at least 10 digits were typed |
| FormInput.EmailRuleImpliesPattern | script.js:165-166 | an address with no whitespace, one `@` with text before it and an inner dot after it matches the pattern |
| FormInput.EmailPatternImpliesRule | script.js:165-166 | an address the pattern matches has no whitespace, one `@` with text before it, and an inner dot after it |
| FormInput.EmailRuleMatchesPattern | script.js:165-166 | the email pattern accepts exactly the addresses of the plain rule |
| FormInput.ApplicationId | script.js:92 | for a draw below 1000000 the id is `APP` and six digits whose value is the draw, nine characters in all |
| FormInput.ApplicationIdInjective | script.js:92 | different draws give different ids |
| RequestHandler.AddSearch | database.php:157-162 | a term PHP considers empty adds nothing; any other term adds the five-column clause and binds `%term%` five times; the statement stays bindable |
| RequestHandler.AddStatus | database.php:164-168 | status `all` adds nothing; any other status adds one equality clause and one value |
| RequestHandler.AddDate | database.php:170-174 | an empty date adds nothing; any other date adds one equality clause and one value |
| RequestHandler.SearchQuery | database.php:152-176 | the clauses follow `WHERE 1=1` in the order search, status, date, and `ORDER BY created_at DESC` ends the statement; the values are the five patterns, the status, the date, each only when its clause is present |
| RequestHandler.SearchQueryBindable | database.php:152-181 | the type string, the values and the placeholders always agree in number, and every type is `s` |
| RequestHandler.SearchConditionPlaceholders | database.php:157 | the search clause has five placeholders |
| RequestHandler.RenderCountsHoles | database.php:176-181 | the rendered SQL has one `?` per placeholder |
| RequestHandler.SearchStatementMarks | database.php:152-181 | the rendered search SQL has exactly one `?` per bound value |
| RequestHandler.SearchWithoutFilters | database.php:258-262 | a search request without filters runs the unfiltered query with nothing bound |
| RequestHandler.ZeroTermCountsAsEmpty | database.php:156-157 | a search term `"0"` builds the same query as an empty term |
| RequestHandler.ZeroDateCountsAsEmpty | database.php:170-171 | a date `"0"` builds the same query as an empty date |
| RequestHandler.ServerSearchKeepsDate | database.php:156-174 | unlike the dashboard, the server applies a term and a date together: both clauses, the five patterns and the date |
| RequestHandler.ParseAction | database.php:193-267 | the `switch` finds the action whose label is the name, and none exactly when no action has that label |
| RequestHandler.ActionNameRoundTrip | database.php:193-267 | every action's label selects that action |
| RequestHandler.Run | database.php:194-264 | `get_bookings` answers with the newest-first query of all bookings and `get_stats` with the statistics row; each write and the login answer with the database outcome and that action's fixed success or failure message; a search reads its fields with the defaults `""`, `all`, `""`; any query returned is bindable |
| RequestHandler.HandlePost | database.php:190-267 | a missing or unknown action gives `Invalid action`; a known one runs that action's branch |

## Left out

- Browser work is not modelled: the DOM, HTML templates, modals, notifications, animations, scroll handlers and the intersection observer. The rendered pagination is reduced to a list of control tokens.
- `api.js` is not part of this model. It only wraps `fetch` and returns parsed JSON.
- The mysqli connection and table creation are not modelled. Executing SQL and `password_verify` are left out too. Each database call's outcome is the `dbOk` parameter of `RequestHandler.HandlePost`. `get_bookings` returns the statement it would run. `get_stats` returns a token for the statistics row; its aggregate query (database.php:124-134) is not modelled.
- Transport timing is not modelled: the storage event, `postMessage` and the `setInterval` timer. Only the merge and the mailbox-consume step are.
- Locale date formatting, the CSV download and the print window are not modelled. They depend on the browser.
- `Math.random` and `Date.now()` are not modelled. The random draw, the current timestamp and today's date are parameters.
- BookingFeed.Complete: the source reads the clock three times, once each for the generated id, the default date and the default `createdAt` (admin.js:676, 681, 685). The model uses one timestamp `now` for the id and `createdAt`, and an independent `today` for the date.
- `localStorage` and `sessionStorage` access and the demo login fallback are not modelled.
- Bookings.Status: only the four lifecycle states are modelled. A payload status string outside them is not.
- Strings.Lower: lowercasing is ASCII only. Non-ASCII letters are left as they are.
- Strings.StrLess: strings compare by character, not by UTF-16 code unit.
- Dates are modelled as `(year, month, day)` values. They are not parsed from `YYYY-MM-DD` text.
- The `new Date(...)` conversion in the date-column sort is not modelled. Comparing those values by time is modelled as date order.
- `createdAt` is an integer timestamp, not an ISO string. The default sort compares the timestamps.
- BookingFeed.Payload: a JavaScript-falsy non-string field counts as absent. The model has no way to spell such a value.
- BookingFeed.Poll: payload fields are assumed to be strings, with the status one of the four states. A truthy non-string field such as a numeric `time` is pushed and saved, and then `renderBookings` throws on it (admin.js:688-694, 240, 245) before `removeItem` runs. The source then keeps the slot and, for a payload without an id, appends another record on every tick. The model cannot spell such a payload.
- RequestHandler.HandlePost: PHP's handling of missing keys other than `action` and the search fields is not modelled. Those reads only feed the stubbed database calls.

=== FILE: booking_feed.dfy ===
/** How the admin panel takes in bookings created on the public site: a
    payload arrives by storage event, by window message, or from the mailbox
    slot polled every two seconds; `addNewBooking` fills absent fields with
    fixed defaults and appends the record unless its id is already listed.
    The clock reading is a parameter. */
module BookingFeed {
  import opened Strings
  import opened Bookings

  /** A notification payload: every field may be absent. When the defaults
      are filled in, a field value JavaScript treats as false (the empty
      string) counts as absent; the duplicate check compares the id as given. */
  datatype Payload = Payload(
    id: Option<string>,
    name: Option<string>,
    email: Option<string>,
    phone: Option<string>,
    service: Option<string>,
    date: Option<Date>,
    time: Option<string>,
    status: Option<Status>,
    message: Option<string>,
    createdAt: Option<int>)

  /** `value || fallback` for a string field. */
  function OrElse(o: Option<string>, fallback: string): (r: string)
    ensures o.Some? && o.value != "" ==> r == o.value
    ensures o.None? || o.value == "" ==> r == fallback
  {
    if o.Some? && o.value != "" then o.value else fallback
  }

  /** `'BK' + String(now).slice(-6)`: the id given to a payload without one. */
  function GeneratedId(now: nat): (r: string)
    ensures 3 <= |r| <= 8 && r[..2] == "BK"
    ensures AllDigits(r[2..]) && r[2..] == LastChars(DecimalString(now), 6)
  {
    "BK" + LastChars(DecimalString(now), 6)
  }

  /** The record built from a payload: each present field is kept, each
      absent one gets its default. `now` is the current timestamp and
      `today` the current date. */
  function Complete(p: Payload, now: nat, today: Date): (b: Booking)
    ensures b.id == OrElse(p.id, GeneratedId(now))
    ensures b.name == OrElse(p.name, "Unknown")
    ensures b.email == OrElse(p.email, "unknown@email.com")
    ensures b.phone == OrElse(p.phone, "0000000000")
    ensures b.service == OrElse(p.service, "Unknown Service")
    ensures b.date == (if p.date.Some? then p.date.value else today)
    ensures b.time == OrElse(p.time, "09:00")
    ensures b.status == (if p.status.Some? then p.status.value else Pending)
    ensures b.message == OrElse(p.message, "")
    ensures b.createdAt == (if p.createdAt.Some? then p.createdAt.value else now)
  {
    Booking(
      OrElse(p.id, GeneratedId(now)),
      OrElse(p.name, "Unknown"),
      OrElse(p.email, "unknown@email.com"),
      OrElse(p.phone, "0000000000"),
      OrElse(p.service, "Unknown Service"),
      if p.date.Some? then p.date.value else today,
      OrElse(p.time, "09:00"),
      if p.status.Some? then p.status.value else Pending,
      OrElse(p.message, ""),
      if p.createdAt.Some? then p.createdAt.value else now)
  }

  /** The payload that lists every field of a record. */
  function PayloadOf(b: Booking): Payload {
    Payload(Some(b.id), Some(b.name), Some(b.email), Some(b.phone), Some(b.service),
      Some(b.date), Some(b.time), Some(b.status), Some(b.message), Some(b.createdAt))
  }

  /** A payload listing every field of a record completes to that record,
      whatever the clock says, as long as no field the defaults replace is
      empty (an empty message is its own default). */
  lemma CompleteRoundTrip(b: Booking, now: nat, today: Date)
    requires b.id != "" && b.name != "" && b.email != "" && b.phone != ""
    requires b.service != "" && b.time != ""
    ensures Complete(PayloadOf(b), now, today) == b
  {
  }

  /** The payload's id is already listed (the check uses the raw payload id,
      so a payload without one is never a duplicate). */
  predicate AlreadyListed(s: seq<Booking>, p: Payload) {
    p.id.Some? && HasId(s, p.id.value)
  }

  /** The new list and the id `addNewBooking` returns (None when it ignored
      a duplicate). */
  datatype Merge = Merge(bookings: seq<Booking>, added: Option<string>)

  function AddNewBooking(s: seq<Booking>, p: Payload, now: nat, today: Date): (m: Merge)
    ensures AlreadyListed(s, p) ==> m.bookings == s && m.added.None?
    ensures !AlreadyListed(s, p) ==>
      && |m.bookings| == |s| + 1
      && m.bookings[..|s|] == s
      && m.bookings[|s|] == Complete(p, now, today)
      && m.added == Some(m.bookings[|s|].id)
  {
    if AlreadyListed(s, p) then Merge(s, None)
    else
      var b := Complete(p, now, today);
      assert (s + [b])[..|s|] == s;
      Merge(s + [b], Some(b.id))
  }

  /** A payload with a non-empty id is merged at most once, however many
      channels deliver it and whenever they do. */
  lemma AddIsIdempotent(s: seq<Booking>, p: Payload, now: nat, today: Date, later: nat, laterDay: Date)
    requires p.id.Some? && p.id.value != ""
    ensures var once := AddNewBooking(s, p, now, today).bookings;
      AddNewBooking(once, p, later, laterDay).bookings == once
  {
    var m := AddNewBooking(s, p, now, today);
    if !AlreadyListed(s, p) {
      assert m.bookings[|s|].id == p.id.value;
    }
  }

  /** A payload without an id is appended again on every delivery: the
      duplicate check never fires for it. */
  lemma AddWithoutIdRepeats(s: seq<Booking>, p: Payload, now: nat, today: Date)
    requires p.id.None?
    ensures var once := AddNewBooking(s, p, now, today).bookings;
      |AddNewBooking(once, p, now, today).bookings| == |s| + 2
  {
  }

  /** Merging a payload whose non-empty id is new keeps ids unique. */
  lemma AddKeepsIdsUnique(s: seq<Booking>, p: Payload, now: nat, today: Date)
    requires UniqueIds(s)
    requires p.id.Some? && p.id.value != ""
    ensures UniqueIds(AddNewBooking(s, p, now, today).bookings)
  {
    var m := AddNewBooking(s, p, now, today);
    if !AlreadyListed(s, p) {
      forall i, j | 0 <= i < j < |m.bookings|
        ensures m.bookings[i].id != m.bookings[j].id
      {
        if j == |s| {
          assert m.bookings[i] == s[i];
        } else {
          assert m.bookings[i] == s[i] && m.bookings[j] == s[j];
        }
      }
    }
  }

  // ---------------------------------------------------------------------------
  // Polling the mailbox slot

  /** What the `newBooking` slot holds, as the poll sees it: nothing (or the
      empty string), text that parses to anything but `null` (a non-object
      value reaches the merge with every field absent), or text on which
      `JSON.parse` throws or that parses to `null` (so reading its `id`
      throws). */
  datatype Slot = Empty | Parsed(payload: Payload) | Unreadable

  /** The admin list together with the shared `newBooking` slot. */
  datatype Feed = Feed(bookings: seq<Booking>, mailbox: Slot)

  /** One tick of the two-second poll: a parsed payload is merged unless its
      id is already listed, and the slot is cleared either way. On unreadable
      content the tick throws before the slot is cleared, so nothing changes. */
  function Poll(f: Feed, now: nat, today: Date): (g: Feed)
    ensures f.mailbox.Parsed? ==> g.mailbox.Empty?
    ensures f.mailbox.Parsed? ==> g.bookings == AddNewBooking(f.bookings, f.mailbox.payload, now, today).bookings
    ensures !f.mailbox.Parsed? ==> g == f
  {
    match f.mailbox
    case Empty => f
    case Unreadable => f
    case Parsed(p) =>
      var bookings := if !AlreadyListed(f.bookings, p)
        then AddNewBooking(f.bookings, p, now, today).bookings
        else f.bookings;
      Feed(bookings, Empty)
  }

  /** `ticks` polls in a row with the same clock readings. */
  function PollTimes(f: Feed, ticks: nat, now: nat, today: Date): Feed
    decreases ticks
  {
    if ticks == 0 then f else Poll(PollTimes(f, ticks - 1, now, today), now, today)
  }

  /** Unreadable content is never cleared: every later tick finds it again
      and the list never changes. */
  lemma {:induction false} UnreadableSlotStays(f: Feed, ticks: nat, now: nat, today: Date)
    requires f.mailbox.Unreadable?
    ensures PollTimes(f, ticks, now, today) == f
    decreases ticks
  {
    if ticks > 0 {
      UnreadableSlotStays(f, ticks - 1, now, today);
    }
  }

  /** A second tick after a parsed payload finds the slot empty and changes
      nothing; on any other slot a tick changes nothing at all. */
  lemma PollTwiceIsPollOnce(f: Feed, now: nat, today: Date, later: nat, laterDay: Date)
    ensures Poll(Poll(f, now, today), later, laterDay) == Poll(f, now, today)
  {
  }

  /** One booking delivered by all three channels (storage event, window
      message, then the polled slot) ends up listed exactly once. */
  lemma ThreeChannelsMergeOnce(s: seq<Booking>, p: Payload, t1: nat, t2: nat, t3: nat, today: Date)
    requires p.id.Some? && p.id.value != ""
    ensures var once := AddNewBooking(s, p, t1, today).bookings;
      var viaMessage := AddNewBooking(once, p, t2, today).bookings;
      Poll(Feed(viaMessage, Parsed(p)), t3, today) == Feed(once, Empty)
  {
    AddIsIdempotent(s, p, t1, today, t2, today);
    AddIsIdempotent(s, p, t1, today, t3, today);
  }
}

=== FILE: bookings.dfy ===
/** The booking record the admin dashboard keeps in its in-memory `bookings`
    array, the columns a user can sort by, and the order the sort comparator
    applies to each column's values. */
module Bookings {
  import opened Strings

  /** The four lifecycle states a booking can be in. */
  datatype Status = Pending | Confirmed | Completed | Cancelled

  /** The string the record carries for each state (what a column sort compares). */
  function StatusName(s: Status): string {
    match s
    case Pending => "pending"
    case Confirmed => "confirmed"
    case Completed => "completed"
    case Cancelled => "cancelled"
  }

  /** A calendar date, the value of a `YYYY-MM-DD` string. */
  datatype Date = Date(year: int, month: int, day: int)

  /** Chronological order of two dates. */
  predicate DateBefore(a: Date, b: Date) {
    a.year < b.year
    || (a.year == b.year && (a.month < b.month || (a.month == b.month && a.day < b.day)))
  }

  /** One booking; `createdAt` is the creation timestamp in milliseconds. */
  datatype Booking = Booking(
    id: string,
    name: string,
    email: string,
    phone: string,
    service: string,
    date: Date,
    time: string,
    status: Status,
    message: string,
    createdAt: int)

  /** The record fields a column header can sort by. */
  datatype Column =
    | ById | ByName | ByEmail | ByPhone | ByService
    | ByDate | ByTime | ByStatus | ByMessage | ByCreatedAt

  /** The value the sort comparator reads from a record for one column:
      strings compare as strings, `date` is converted to a Date first, and the
      creation time compares as a timestamp. */
  datatype Key = TextKey(text: string) | DateKey(day: Date) | StampKey(stamp: int)

  function SortKey(b: Booking, c: Column): Key {
    match c
    case ById => TextKey(b.id)
    case ByName => TextKey(b.name)
    case ByEmail => TextKey(b.email)
    case ByPhone => TextKey(b.phone)
    case ByService => TextKey(b.service)
    case ByDate => DateKey(b.date)
    case ByTime => TextKey(b.time)
    case ByStatus => TextKey(StatusName(b.status))
    case ByMessage => TextKey(b.message)
    case ByCreatedAt => StampKey(b.createdAt)
  }

  /** The comparator's `aVal < bVal`. Keys of one column always have the same
      shape; keys of different shapes are ordered by shape so that the relation
      is a strict total order on all keys. */
  predicate KeyLess(a: Key, b: Key) {
    match a
    case TextKey(x) => !b.TextKey? || StrLess(x, b.text)
    case DateKey(x) => b.StampKey? || (b.DateKey? && DateBefore(x, b.day))
    case StampKey(x) => b.StampKey? && x < b.stamp
  }

  lemma KeyLessIrreflexive(a: Key)
    ensures !KeyLess(a, a)
  {
    if a.TextKey? {
      StrLessIrreflexive(a.text);
    }
  }

  lemma KeyLessTransitive(a: Key, b: Key, c: Key)
    requires KeyLess(a, b) && KeyLess(b, c)
    ensures KeyLess(a, c)
  {
    if a.TextKey? && b.TextKey? && c.TextKey? {
      StrLessTransitive(a.text, b.text, c.text);
    }
  }

  lemma KeyLessTotal(a: Key, b: Key)
    ensures a == b || KeyLess(a, b) || KeyLess(b, a)
  {
    if a.TextKey? && b.TextKey? {
      StrLessTotal(a.text, b.text);
    }
  }

  /** "Not after" is transitive: a <= b and b <= c give a <= c. */
  lemma KeyNotLessTransitive(a: Key, b: Key, c: Key)
    requires !KeyLess(b, a) && !KeyLess(c, b)
    ensures !KeyLess(c, a)
  {
    KeyLessTotal(a, b);
    KeyLessTotal(b, c);
    if KeyLess(c, a) {
      if a == b {
      } else if b == c {
      } else {
        KeyLessTransitive(a, b, c);
        KeyLessTransitive(c, a, b);
        KeyLessIrreflexive(b);
      }
    }
  }

  // ---------------------------------------------------------------------------
  // Looking a booking up by id

  /** `bookings.find(b => b.id === id)`: the position of the first record with
      that id. */
  function IndexOfId(s: seq<Booking>, id: string): (r: Option<nat>)
    ensures r.Some? ==> r.value < |s| && s[r.value].id == id
    ensures r.Some? ==> forall j :: 0 <= j < r.value ==> s[j].id != id
    ensures r.None? <==> forall j :: 0 <= j < |s| ==> s[j].id != id
    decreases |s|
  {
    if |s| == 0 then None
    else if s[0].id == id then Some(0)
    else match IndexOfId(s[1..], id)
      case None => None
      case Some(k) => Some(k + 1)
  }

  predicate HasId(s: seq<Booking>, id: string) {
    exists j :: 0 <= j < |s| && s[j].id == id
  }

  /** No two records share an id. */
  predicate UniqueIds(s: seq<Booking>) {
    forall i, j :: 0 <= i < j < |s| ==> s[i].id != s[j].id
  }
}

=== FILE: dashboard.dfy ===
/** The admin dashboard's controls as transitions of the view state, the
    status actions offered per booking, the local status update after a
    status request, and the statistics cards. */
module Dashboard {
  import opened Strings
  import opened Bookings
  import opened Sorting
  import opened ListView
  import opened Pagination

  // ---------------------------------------------------------------------------
  // View-control transitions

  function Flip(d: Direction): Direction {
    if d == Asc then Desc else Asc
  }

  /** Clicking a column header: the same column again reverses the direction,
      a new column is sorted ascending. Nothing else changes (the page stays). */
  function SortTable(v: ViewState, c: Column): (w: ViewState)
    ensures w.sortColumn == Some(c)
    ensures v.sortColumn == Some(c) ==> w.sortDirection != v.sortDirection
    ensures v.sortColumn != Some(c) ==> w.sortDirection == Asc
    ensures w.(sortDirection := v.sortDirection, sortColumn := v.sortColumn) == v
  {
    if v.sortColumn == Some(c) then v.(sortDirection := Flip(v.sortDirection))
    else v.(sortColumn := Some(c), sortDirection := Asc)
  }

  /** Two clicks on the header of the current sort column restore the view;
      two clicks on another header leave it sorted descending by that column. */
  lemma SortTableTwice(v: ViewState, c: Column)
    ensures v.sortColumn == Some(c) ==> SortTable(SortTable(v, c), c) == v
    ensures v.sortColumn != Some(c) ==>
      SortTable(SortTable(v, c), c) == v.(sortColumn := Some(c), sortDirection := Desc)
  {
  }

  /** After a header click the table is ordered by that column. */
  lemma SortTableOrdersByColumn(s: seq<Booking>, v: ViewState, c: Column)
    ensures EffectiveOrder(SortTable(v, c)).column == c
    ensures Sorted(Arrange(s, SortTable(v, c)), EffectiveOrder(SortTable(v, c)))
  {
    ArrangeIsSortedFilter(s, SortTable(v, c));
  }

  /** A status filter button: sets the filter and goes back to page 1. */
  function FilterByStatus(v: ViewState, f: StatusFilter): (w: ViewState)
    ensures w.statusFilter == f && w.currentPage == 1
    ensures w.(statusFilter := v.statusFilter, currentPage := v.currentPage) == v
  {
    v.(statusFilter := f, currentPage := 1)
  }

  /** Typing in the search box: sets the term and goes back to page 1. */
  function SearchFor(v: ViewState, term: string): (w: ViewState)
    ensures w.searchTerm == term && w.currentPage == 1
    ensures w.(searchTerm := v.searchTerm, currentPage := v.currentPage) == v
  {
    v.(searchTerm := term, currentPage := 1)
  }

  /** Picking (or clearing) a date: sets the filter and goes back to page 1. */
  function FilterByDate(v: ViewState, d: Option<Date>): (w: ViewState)
    ensures w.dateFilter == d && w.currentPage == 1
    ensures w.(dateFilter := v.dateFilter, currentPage := v.currentPage) == v
  {
    v.(dateFilter := d, currentPage := 1)
  }

  /** On page 1 the table shows the first rows of the arranged list, and it is
      empty only when nothing passes the filter. So after any filter change the
      user never lands on a page past the end. */
  lemma FirstPageShowsFirstRows(s: seq<Booking>, w: ViewState)
    requires w.currentPage == 1
    ensures ComputeVisiblePage(s, w).rows == Arrange(s, w)[..Min(ItemsPerPage, |Arrange(s, w)|)]
    ensures ComputeVisiblePage(s, w).rows == [] <==> FilterBookings(s, w) == []
  {
    var p := ComputeVisiblePage(s, w);
    var a := Arrange(s, w);
    ArrangeIsSortedFilter(s, w);
    assert PageStart(1, ItemsPerPage) == 0;
    assert p.rows == a[..Min(ItemsPerPage, |a|)];
  }

  /** `changePage(page)`: the bound is the page count of the whole list, not of
      the filtered list; an out-of-range request changes nothing. */
  function ChangePage(v: ViewState, s: seq<Booking>, page: int): (w: ViewState)
    ensures w.(currentPage := v.currentPage) == v
    ensures 1 <= page <= TotalPages(|s|, ItemsPerPage) ==> w.currentPage == page
    ensures !(1 <= page <= TotalPages(|s|, ItemsPerPage)) ==> w.currentPage == v.currentPage
  {
    if 1 <= page <= TotalPages(|s|, ItemsPerPage) then v.(currentPage := page) else v
  }

  /** The guard keeps the page within the page count of the whole list. */
  lemma ChangePageWithinWholeList(v: ViewState, s: seq<Booking>, page: int)
    requires v.currentPage <= TotalPages(|s|, ItemsPerPage)
    ensures ChangePage(v, s, page).currentPage <= TotalPages(|s|, ItemsPerPage)
  {
  }

  /** Because the guard counts the unfiltered list, a filtered view accepts a
      page past its own last page and then shows no rows. */
  lemma ChangePagePastFilteredEnd(v: ViewState, s: seq<Booking>, page: int)
    requires TotalPages(|FilterBookings(s, v)|, ItemsPerPage) < page <= TotalPages(|s|, ItemsPerPage)
    ensures ChangePage(v, s, page).currentPage == page
    ensures ComputeVisiblePage(s, ChangePage(v, s, page)).rows == []
  {
    FilterIgnoresPage(s, v, page);
  }

  /** One `renderBookings` call: the visible page and the pagination bar.
      When the page has no rows the bar is cleared, so it never offers a way
      further past the end of the filtered list. */
  method RenderBookings(s: seq<Booking>, v: ViewState) returns (p: VisiblePage, bar: seq<Control>)
    ensures p == ComputeVisiblePage(s, v)
    ensures p.rows == [] || p.totalPages <= 1 ==> bar == []
    ensures p.rows != [] && p.totalPages > 1 ==>
      && |bar| >= 2
      && bar[0] == PrevButton(p.currentPage - 1, p.currentPage == 1)
      && bar[|bar| - 1] == NextButton(p.currentPage + 1, p.currentPage == p.totalPages)
    ensures forall q :: ShowsButton(bar, q) <==>
      p.rows != [] && p.totalPages > 1 && 1 <= q <= p.totalPages && InWindow(q, p.currentPage, p.totalPages)
    ensures forall k :: 0 <= k < |bar| && (bar[k].PrevButton? || bar[k].NextButton?) && !bar[k].disabled ==>
      1 <= bar[k].target <= p.totalPages
  {
    p := ComputeVisiblePage(s, v);
    if p.rows == [] {
      bar := [];
      return;
    }
    bar := RenderPagination(p.totalPages, p.currentPage);
  }

  // ---------------------------------------------------------------------------
  // Status actions

  /** The lifecycle transitions a booking may take. */
  const AllowedTransitions: set<(Status, Status)> :=
    {(Pending, Confirmed), (Pending, Cancelled), (Confirmed, Completed), (Confirmed, Cancelled)}

  /** The status buttons offered for a booking, in display order. */
  function ActionTargets(st: Status): (r: seq<Status>)
    ensures forall t :: t in r <==> (st, t) in AllowedTransitions
    ensures |r| > 0 ==> r[|r| - 1] == Cancelled
    ensures forall i, j :: 0 <= i < j < |r| ==> r[i] != r[j]
  {
    match st
    case Pending => [Confirmed, Cancelled]
    case Confirmed => [Completed, Cancelled]
    case _ => []
  }

  /** The local part of `updateBookingStatus`: the first record with the id
      gets the new status. It runs whether or not the request to the server
      succeeded. */
  function UpdateLocalStatus(s: seq<Booking>, id: string, st: Status): (r: seq<Booking>)
    ensures |r| == |s|
    ensures !HasId(s, id) ==> r == s
    ensures forall i :: 0 <= i < |s| ==> r[i].(status := s[i].status) == s[i]
    ensures forall i :: 0 <= i < |s| && s[i].id != id ==> r[i] == s[i]
    ensures HasId(s, id) ==>
      (exists k :: 0 <= k < |s| && s[k].id == id && r[k].status == st
        && (forall j :: 0 <= j < k ==> s[j].id != id)
        && forall i :: 0 <= i < |s| && i != k ==> r[i] == s[i])
  {
    match IndexOfId(s, id)
    case None => s
    case Some(k) => s[k := s[k].(status := st)]
  }

  /** With unique ids, exactly the record with that id changes, and only in
      its status; ids stay unique. */
  lemma UpdateTouchesOnlyThatRecord(s: seq<Booking>, id: string, st: Status)
    requires UniqueIds(s)
    ensures forall i :: 0 <= i < |s| ==>
      UpdateLocalStatus(s, id, st)[i] == if s[i].id == id then s[i].(status := st) else s[i]
    ensures UniqueIds(UpdateLocalStatus(s, id, st))
  {
  }

  // ---------------------------------------------------------------------------
  // Statistics

  function CountStatus(s: seq<Booking>, st: Status): nat
    decreases |s|
  {
    if |s| == 0 then 0
    else (if s[0].status == st then 1 else 0) + CountStatus(s[1..], st)
  }

  /** The four statistics cards (cancelled bookings have none). */
  datatype Stats = Stats(total: nat, pending: nat, confirmed: nat, completed: nat)

  function Statistics(s: seq<Booking>): (r: Stats)
    ensures r.total == |s|
    ensures r.pending + r.confirmed + r.completed + CountStatus(s, Cancelled) == r.total
    ensures r.pending == |FilterBookings(s, FilterByStatus(InitialView, Only(Pending)))|
    ensures r.confirmed == |FilterBookings(s, FilterByStatus(InitialView, Only(Confirmed)))|
    ensures r.completed == |FilterBookings(s, FilterByStatus(InitialView, Only(Completed)))|
  {
    CountsPartition(s);
    CountMatchesFilter(s, Pending);
    CountMatchesFilter(s, Confirmed);
    CountMatchesFilter(s, Completed);
    Stats(|s|, CountStatus(s, Pending), CountStatus(s, Confirmed), CountStatus(s, Completed))
  }

  /** Every booking is in exactly one of the four states. */
  lemma {:induction false} CountsPartition(s: seq<Booking>)
    ensures CountStatus(s, Pending) + CountStatus(s, Confirmed)
          + CountStatus(s, Completed) + CountStatus(s, Cancelled) == |s|
    decreases |s|
  {
    if |s| > 0 {
      CountsPartition(s[1..]);
    }
  }

  /** A card's count is the number of rows its filter button lists. */
  lemma {:induction false} CountMatchesFilter(s: seq<Booking>, st: Status)
    ensures CountStatus(s, st) == |FilterBookings(s, FilterByStatus(InitialView, Only(st)))|
    decreases |s|
  {
    if |s| > 0 {
      CountMatchesFilter(s[1..], st);
    }
  }

  lemma {:induction false} CountAfterReplace(s: seq<Booking>, k: nat, b: Booking, st: Status)
    requires k < |s|
    ensures CountStatus(s[k := b], st) + (if s[k].status == st then 1 else 0)
         == CountStatus(s, st) + (if b.status == st then 1 else 0)
    decreases |s|
  {
    if k > 0 {
      CountAfterReplace(s[1..], k - 1, b, st);
      assert s[k := b][1..] == s[1..][k - 1 := b];
    } else {
      assert s[k := b][1..] == s[1..];
    }
  }

  /** A status update moves one booking from its old count to its new one. */
  lemma UpdateShiftsCounts(s: seq<Booking>, id: string, st: Status, t: Status)
    requires HasId(s, id)
    ensures var old_ := s[IndexOfId(s, id).value].status;
      CountStatus(UpdateLocalStatus(s, id, st), t) + (if old_ == t then 1 else 0)
      == CountStatus(s, t) + (if st == t then 1 else 0)
  {
    var k := IndexOfId(s, id).value;
    CountAfterReplace(s, k, s[k].(status := st), t);
  }
}

=== FILE: form_input.dfy ===
/** The public site's form input handling: the input filters that strip
    non-digits and truncate (Aadhar number, mobile number, contact phone), the
    anchored regular-expression checks run on submit, and the application id
    shown after an application is submitted. The random number behind that id
    is a parameter. */
module FormInput {
  import opened Strings

  // ---------------------------------------------------------------------------
  // Digit filters

  /** `s.replace(/\D/g, '')`: the decimal digits of s, in order. */
  function Digits(s: string): (r: string)
    ensures AllDigits(r)
    ensures |r| <= |s|
    decreases |s|
  {
    if |s| == 0 then "" else (if IsDigit(s[0]) then [s[0]] else "") + Digits(s[1..])
  }

  /** The filter removes every non-digit and keeps every digit: each digit
      occurs as often in the output as in the input, any other character not
      at all. */
  lemma {:induction false} DigitsCounts(s: string)
    ensures forall c :: multiset(Digits(s))[c] == if IsDigit(c) then multiset(s)[c] else 0
    decreases |s|
  {
    if |s| > 0 {
      DigitsCounts(s[1..]);
      assert s == [s[0]] + s[1..];
    }
  }

  /** A string of digits is its own digit filter. */
  lemma {:induction false} DigitsOfDigits(s: string)
    requires AllDigits(s)
    ensures Digits(s) == s
    decreases |s|
  {
    if |s| > 0 {
      DigitsOfDigits(s[1..]);
      assert s == [s[0]] + s[1..];
    }
  }

  /** The filter works piecewise, so it keeps the input's digit order. */
  lemma {:induction false} DigitsAppend(a: string, b: string)
    ensures Digits(a + b) == Digits(a) + Digits(b)
    decreases |a|
  {
    if |a| == 0 {
      assert a + b == b;
    } else {
      DigitsAppend(a[1..], b);
      var head: string := if IsDigit(a[0]) then [a[0]] else "";
      assert (a + b)[0] == a[0];
      assert (a + b)[1..] == a[1..] + b;
      assert Digits(a) == head + Digits(a[1..]);
      calc {
        Digits(a + b);
        head + Digits((a + b)[1..]);
        head + Digits(a[1..] + b);
        head + (Digits(a[1..]) + Digits(b));
        (head + Digits(a[1..])) + Digits(b);
      }
    }
  }

  /** `s.replace(/\D/g, '').slice(0, n)`: the first n digits of s. */
  function KeepDigits(s: string, n: nat): (r: string)
    ensures AllDigits(r)
    ensures |r| <= n
    ensures |r| == if |Digits(s)| < n then |Digits(s)| else n
    ensures IsPrefix(r, Digits(s))
  {
    var d := Digits(s);
    if |d| <= n then d else d[..n]
  }

  /** The Aadhar input filter (12 digits). */
  function SanitizeAadhar(s: string): string {
    KeepDigits(s, 12)
  }

  /** The mobile-number and contact-phone input filter (10 digits). */
  function SanitizeTenDigits(s: string): string {
    KeepDigits(s, 10)
  }

  /** Running the filter on its own output changes nothing. */
  lemma KeepDigitsIdempotent(s: string, n: nat)
    ensures KeepDigits(KeepDigits(s, n), n) == KeepDigits(s, n)
  {
    DigitsOfDigits(KeepDigits(s, n));
  }

  /** A value that already satisfies the filter passes through unchanged. */
  lemma KeepDigitsFixesDigitStrings(s: string, n: nat)
    requires AllDigits(s) && |s| <= n
    ensures KeepDigits(s, n) == s
  {
    DigitsOfDigits(s);
  }

  // ---------------------------------------------------------------------------
  // Submit-time checks

  /** `/^\d{n}$/.test(s)`, matched one character at a time. */
  predicate MatchesDigitRun(s: string, n: nat)
    ensures MatchesDigitRun(s, n) <==> |s| == n && AllDigits(s)
    decreases n
  {
    if n == 0 then |s| == 0 else |s| > 0 && IsDigit(s[0]) && MatchesDigitRun(s[1..], n - 1)
  }

  /** The Aadhar check on the application form. */
  predicate ValidAadhar(s: string)
    ensures ValidAadhar(s) <==> |s| == 12 && AllDigits(s)
  {
    MatchesDigitRun(s, 12)
  }

  /** The mobile-number check on the status form. */
  predicate ValidMobile(s: string)
    ensures ValidMobile(s) <==> |s| == 10 && AllDigits(s)
  {
    MatchesDigitRun(s, 10)
  }

  /** The contact form checks the phone only when one was entered. */
  predicate ValidContactPhone(s: string)
    ensures ValidContactPhone(s) <==> |s| == 0 || (|s| == 10 && AllDigits(s))
  {
    s == "" || MatchesDigitRun(s, 10)
  }

  /** After the input filter, the Aadhar check passes exactly when at least
      twelve digits were typed. */
  lemma FilteredAadharValidIff(s: string)
    ensures ValidAadhar(SanitizeAadhar(s)) <==> |Digits(s)| >= 12
  {
  }

  /** After the input filter, the contact phone passes exactly when no digit
      or at least ten digits were typed. */
  lemma FilteredPhoneValidIff(s: string)
    ensures ValidContactPhone(SanitizeTenDigits(s)) <==> |Digits(s)| == 0 || |Digits(s)| >= 10
  {
  }

  // ---------------------------------------------------------------------------
  // Email

  /** `\s` in a JavaScript regular expression. */
  predicate IsJsSpace(c: char) {
    var n := c as int;
    || (9 <= n <= 13) || n == 0x20 || n == 0xA0 || n == 0x1680
    || (0x2000 <= n <= 0x200A) || n == 0x2028 || n == 0x2029 || n == 0x202F
    || n == 0x205F || n == 0x3000 || n == 0xFEFF
  }

  /** The character class `[^\s@]`. */
  predicate PlainChar(c: char) {
    !IsJsSpace(c) && c != '@'
  }

  /** Every character is in the class `[^\s@]`. */
  predicate Plain(t: string) {
    forall k :: 0 <= k < |t| ==> PlainChar(t[k])
  }

  lemma PlainSliceIntro(s: string, a: int, b: int)
    requires 0 <= a <= b <= |s|
    requires forall m :: a <= m < b ==> PlainChar(s[m])
    ensures Plain(s[a..b])
  {
    var t := s[a..b];
    forall k | 0 <= k < |t|
      ensures PlainChar(t[k])
    {
      assert t[k] == s[a + k];
    }
  }

  lemma PlainSliceElim(s: string, a: int, b: int)
    requires 0 <= a <= b <= |s|
    requires Plain(s[a..b])
    ensures forall m :: a <= m < b ==> PlainChar(s[m])
  {
    var t := s[a..b];
    forall m | a <= m < b
      ensures PlainChar(s[m])
    {
      assert s[m] == t[m - a];
    }
  }

  /** One way `/^[^\s@]+@[^\s@]+\.[^\s@]+$/` matches s: the @ at i and the
      escaped dot at j. */
  predicate EmailSplit(s: string, i: int, j: int) {
    && 0 < i && i + 1 < j && j + 1 < |s|
    && s[i] == '@' && s[j] == '.'
    && Plain(s[..i]) && Plain(s[i + 1..j]) && Plain(s[j + 1..])
  }

  /** The contact form's email pattern accepts s. */
  predicate EmailPatternMatches(s: string) {
    exists i, j :: 0 < i < j < |s| && EmailSplit(s, i, j)
  }

  /** The domain has a dot that is neither its first nor its last character. */
  predicate InnerDot(d: string) {
    exists k :: 0 < k < |d| - 1 && d[k] == '.'
  }

  /** The email rule in plain terms: no whitespace, exactly one @ with
      something before it, and an inner dot after it. */
  predicate ValidEmail(s: string) {
    && (forall k :: 0 <= k < |s| ==> !IsJsSpace(s[k]))
    && match IndexOf(s, '@')
       case None => false
       case Some(i) => 0 < i && '@' !in s[i + 1..] && InnerDot(s[i + 1..])
  }

  lemma EmailRuleImpliesPattern(s: string)
    requires ValidEmail(s)
    ensures EmailPatternMatches(s)
  {
    var i := IndexOf(s, '@').value;
    var d := s[i + 1..];
    var k :| 0 < k < |d| - 1 && d[k] == '.';
    var j := i + 1 + k;
    forall m | 0 <= m < |s| && m != i
      ensures PlainChar(s[m])
    {
      if m > i {
        assert s[m] == d[m - i - 1];
      }
    }
    assert s[j] == d[k];
    PlainSliceIntro(s, 0, i);
    PlainSliceIntro(s, i + 1, j);
    PlainSliceIntro(s, j + 1, |s|);
    assert s[..i] == s[0..i] && s[j + 1..] == s[j + 1..|s|];
    assert EmailSplit(s, i, j);
  }

  lemma EmailPatternImpliesRule(s: string)
    requires EmailPatternMatches(s)
    ensures ValidEmail(s)
  {
    var i, j :| 0 < i < j < |s| && EmailSplit(s, i, j);
    assert s[..i] == s[0..i] && s[j + 1..] == s[j + 1..|s|];
    PlainSliceElim(s, 0, i);
    PlainSliceElim(s, i + 1, j);
    PlainSliceElim(s, j + 1, |s|);
    assert forall m :: 0 <= m < |s| && m != i ==> PlainChar(s[m]);
    assert IndexOf(s, '@') == Some(i);
    var d := s[i + 1..];
    forall m | 0 <= m < |d|
      ensures d[m] != '@'
    {
      assert d[m] == s[i + 1 + m];
    }
    assert d[j - i - 1] == '.';
  }

  /** The plain-terms rule accepts exactly what the pattern accepts. */
  lemma EmailRuleMatchesPattern(s: string)
    ensures ValidEmail(s) <==> EmailPatternMatches(s)
  {
    if ValidEmail(s) {
      EmailRuleImpliesPattern(s);
    }
    if EmailPatternMatches(s) {
      EmailPatternImpliesRule(s);
    }
  }

  // ---------------------------------------------------------------------------
  // Application id

  /** `'APP' + n.toString().padStart(6, '0')` for the random draw
      n = floor(random * 1000000). */
  function ApplicationId(n: nat): (r: string)
    requires n < 1000000
    ensures |r| == 9 && r[..3] == "APP"
    ensures AllDigits(r[3..]) && DecimalValue(r[3..]) == n
  {
    assert Pow10(6) == 1000000 by {
      assert Pow10(3) == 1000;
    }
    DecimalLength(n, 6);
    ZeroPadValue(DecimalString(n), 6);
    DecimalRoundTrip(n);
    var r := "APP" + PadStart(DecimalString(n), 6, '0');
    assert r[3..] == PadStart(DecimalString(n), 6, '0');
    r
  }

  /** Different draws give different ids. */
  lemma ApplicationIdInjective(a: nat, b: nat)
    requires a < 1000000 && b < 1000000 && a != b
    ensures ApplicationId(a) != ApplicationId(b)
  {
  }
}

=== FILE: list_view.dfy ===
/** The booking-list view of the admin dashboard: from the in-memory list of
    bookings and the view controls (status filter, search box, date picker,
    sort column and direction, current page) to the rows of one page. The
    pipeline is filter, then sort, then slice. */
module ListView {
  import opened Strings
  import opened Bookings
  import opened Sorting

  /** Rows per page; the dashboard never changes it. */
  const ItemsPerPage: nat := 10

  /** Pages are numbered from 1. */
  type PageNumber = p: int | 1 <= p witness 1

  /** The status filter buttons: everything, or one status. */
  datatype StatusFilter = AllStatuses | Only(status: Status)

  datatype Direction = Asc | Desc

  /** The view-control globals of the dashboard. An empty search term and an
      absent date mean "no search" and "no date filter". */
  datatype ViewState = ViewState(
    statusFilter: StatusFilter,
    searchTerm: string,
    dateFilter: Option<Date>,
    sortColumn: Option<Column>,
    sortDirection: Direction,
    currentPage: PageNumber)

  /** The controls as the dashboard starts. */
  const InitialView := ViewState(AllStatuses, "", None, None, Asc, 1)

  // ---------------------------------------------------------------------------
  // Filter

  predicate PassesStatus(b: Booking, f: StatusFilter) {
    f.AllStatuses? || b.status == f.status
  }

  /** The five fields the search box looks in. */
  function SearchFields(b: Booking): seq<string> {
    [b.id, b.name, b.email, b.phone, b.service]
  }

  /** Case-insensitive substring search over the five fields. */
  predicate MatchesSearch(b: Booking, term: string) {
    var needle := Lower(term);
    Contains(Lower(b.id), needle) || Contains(Lower(b.name), needle)
    || Contains(Lower(b.email), needle) || Contains(Lower(b.phone), needle)
    || Contains(Lower(b.service), needle)
  }

  /** The filter callback. A non-empty search term decides on its own, so the
      date filter is consulted only when the search box is empty. */
  predicate Keep(b: Booking, v: ViewState) {
    && PassesStatus(b, v.statusFilter)
    && if |v.searchTerm| > 0 then MatchesSearch(b, v.searchTerm)
       else v.dateFilter.None? || b.date == v.dateFilter.value
  }

  function FilterBookings(s: seq<Booking>, v: ViewState): seq<Booking>
    decreases |s|
  {
    if |s| == 0 then []
    else (if Keep(s[0], v) then [s[0]] else []) + FilterBookings(s[1..], v)
  }

  /** Each kept record appears as often as in the input; every other record
      is dropped. */
  lemma {:induction false} FilterMultiplicity(s: seq<Booking>, v: ViewState, b: Booking)
    ensures multiset(FilterBookings(s, v))[b] == if Keep(b, v) then multiset(s)[b] else 0
    decreases |s|
  {
    if |s| > 0 {
      FilterMultiplicity(s[1..], v, b);
      assert s == [s[0]] + s[1..];
      assert multiset(s) == multiset([s[0]]) + multiset(s[1..]);
    }
  }

  lemma FilterMembership(s: seq<Booking>, v: ViewState, b: Booking)
    ensures b in FilterBookings(s, v) <==> b in s && Keep(b, v)
  {
    FilterMultiplicity(s, v, b);
  }

  /** The filter keeps the input order: it distributes over concatenation. */
  lemma {:induction false} FilterAppend(a: seq<Booking>, b: seq<Booking>, v: ViewState)
    ensures FilterBookings(a + b, v) == FilterBookings(a, v) + FilterBookings(b, v)
    decreases |a|
  {
    if |a| == 0 {
      assert a + b == b;
    } else {
      FilterAppend(a[1..], b, v);
      assert (a + b)[1..] == a[1..] + b;
    }
  }

  lemma {:induction false} FilterLength(s: seq<Booking>, v: ViewState)
    ensures |FilterBookings(s, v)| <= |s|
    decreases |s|
  {
    if |s| > 0 {
      FilterLength(s[1..], v);
    }
  }

  /** A status filter other than "all" keeps only records of that status. */
  lemma StatusFilterHolds(s: seq<Booking>, v: ViewState)
    requires v.statusFilter.Only?
    ensures forall b :: b in FilterBookings(s, v) ==> b.status == v.statusFilter.status
  {
    forall b | b in FilterBookings(s, v)
      ensures b.status == v.statusFilter.status
    {
      FilterMembership(s, v, b);
    }
  }

  /** With a non-empty search term a record is kept exactly when it passes
      the status filter and one of its five lower-cased fields contains the
      lower-cased term. */
  lemma SearchKeepsIff(s: seq<Booking>, v: ViewState, b: Booking)
    requires |v.searchTerm| > 0
    ensures b in FilterBookings(s, v)
        <==> b in s && PassesStatus(b, v.statusFilter)
             && exists k, i :: 0 <= k < 5 && OccursAt(Lower(SearchFields(b)[k]), Lower(v.searchTerm), i)
  {
    FilterMembership(s, v, b);
    var needle := Lower(v.searchTerm);
    var fields := SearchFields(b);
    forall k | 0 <= k < 5
      ensures Contains(Lower(fields[k]), needle) <==> exists i :: OccursAt(Lower(fields[k]), needle, i)
    {
      ContainsIffOccurs(Lower(fields[k]), needle);
    }
    assert fields[0] == b.id && fields[1] == b.name && fields[2] == b.email;
    assert fields[3] == b.phone && fields[4] == b.service;
    if MatchesSearch(b, v.searchTerm) {
      var k :| 0 <= k < 5 && Contains(Lower(fields[k]), needle);
      var i :| OccursAt(Lower(fields[k]), needle, i);
    }
  }

  /** A non-empty search term shadows the date filter: whatever date is
      picked, the same records are kept. */
  lemma {:induction false} SearchShadowsDate(s: seq<Booking>, v: ViewState, d: Option<Date>)
    requires |v.searchTerm| > 0
    ensures FilterBookings(s, v.(dateFilter := d)) == FilterBookings(s, v)
    decreases |s|
  {
    if |s| > 0 {
      SearchShadowsDate(s[1..], v, d);
    }
  }

  /** The filter does not look at the current page. */
  lemma {:induction false} FilterIgnoresPage(s: seq<Booking>, v: ViewState, page: PageNumber)
    ensures FilterBookings(s, v.(currentPage := page)) == FilterBookings(s, v)
    decreases |s|
  {
    if |s| > 0 {
      FilterIgnoresPage(s[1..], v, page);
    }
  }

  /** With an empty search box and a date picked, only records of that date
      are kept. */
  lemma DateFilterHolds(s: seq<Booking>, v: ViewState)
    requires |v.searchTerm| == 0 && v.dateFilter.Some?
    ensures forall b :: b in FilterBookings(s, v) ==> b.date == v.dateFilter.value
  {
    forall b | b in FilterBookings(s, v)
      ensures b.date == v.dateFilter.value
    {
      FilterMembership(s, v, b);
    }
  }

  // ---------------------------------------------------------------------------
  // Sort

  /** The order the view asks for: the chosen column in the chosen direction,
      or newest first by creation time when no column is chosen. */
  function EffectiveOrder(v: ViewState): Order {
    match v.sortColumn
    case None => Order(ByCreatedAt, false)
    case Some(c) => Order(c, v.sortDirection == Asc)
  }

  /** The filtered records in display order. */
  function Arrange(s: seq<Booking>, v: ViewState): seq<Booking> {
    SortBookings(FilterBookings(s, v), EffectiveOrder(v))
  }

  /** The arranged list is the filtered list rearranged into the requested
      order: ascending or descending by the chosen column, newest first when
      none is chosen. */
  lemma ArrangeIsSortedFilter(s: seq<Booking>, v: ViewState)
    ensures multiset(Arrange(s, v)) == multiset(FilterBookings(s, v))
    ensures |Arrange(s, v)| == |FilterBookings(s, v)|
    ensures forall b :: b in Arrange(s, v) <==> b in s && Keep(b, v)
    ensures Sorted(Arrange(s, v), EffectiveOrder(v))
    ensures v.sortColumn.None? ==>
      forall i, j :: 0 <= i < j < |Arrange(s, v)| ==> Arrange(s, v)[i].createdAt >= Arrange(s, v)[j].createdAt
    ensures v.sortColumn.Some? && v.sortDirection == Asc ==>
      forall i, j :: 0 <= i < j < |Arrange(s, v)| ==>
        !KeyLess(SortKey(Arrange(s, v)[j], v.sortColumn.value), SortKey(Arrange(s, v)[i], v.sortColumn.value))
    ensures v.sortColumn.Some? && v.sortDirection == Desc ==>
      forall i, j :: 0 <= i < j < |Arrange(s, v)| ==>
        !KeyLess(SortKey(Arrange(s, v)[i], v.sortColumn.value), SortKey(Arrange(s, v)[j], v.sortColumn.value))
  {
    var f := FilterBookings(s, v);
    SortPermutes(f, EffectiveOrder(v));
    SortSorts(f, EffectiveOrder(v));
    SortLength(f, EffectiveOrder(v));
    forall b
      ensures b in Arrange(s, v) <==> b in s && Keep(b, v)
    {
      FilterMembership(s, v, b);
      assert b in Arrange(s, v) <==> b in multiset(Arrange(s, v));
    }
    SortedInViewOrder(Arrange(s, v), v);
  }

  /** What `Sorted` under the view's order says about neighbouring keys. */
  lemma SortedInViewOrder(a: seq<Booking>, v: ViewState)
    requires Sorted(a, EffectiveOrder(v))
    ensures v.sortColumn.None? ==>
      forall i, j :: 0 <= i < j < |a| ==> a[i].createdAt >= a[j].createdAt
    ensures v.sortColumn.Some? && v.sortDirection == Asc ==>
      forall i, j :: 0 <= i < j < |a| ==>
        !KeyLess(SortKey(a[j], v.sortColumn.value), SortKey(a[i], v.sortColumn.value))
    ensures v.sortColumn.Some? && v.sortDirection == Desc ==>
      forall i, j :: 0 <= i < j < |a| ==>
        !KeyLess(SortKey(a[i], v.sortColumn.value), SortKey(a[j], v.sortColumn.value))
  {
  }

  // ---------------------------------------------------------------------------
  // Pagination arithmetic

  /** `Math.ceil(n / size)`: the least number of pages of `size` rows that
      holds n rows. */
  function TotalPages(n: nat, size: nat): (t: nat)
    requires size > 0
    ensures (t - 1) * size < n <= t * size
  {
    (n + size - 1) / size
  }

  function Min(a: int, b: int): int {
    if a <= b then a else b
  }

  /** Index of the first row of a page. */
  function PageStart(page: PageNumber, size: nat): nat {
    (page - 1) * size
  }

  lemma MulMonotone(a: int, b: int, c: nat)
    requires a <= b
    ensures a * c <= b * c
  {
  }

  /** A page past the last one starts at or beyond the end of the list; every
      other page starts inside it. */
  lemma PageStartBounds(n: nat, page: PageNumber, size: nat)
    requires size > 0
    ensures page > TotalPages(n, size) <==> PageStart(page, size) >= n
  {
    var t := TotalPages(n, size);
    if page > t {
      MulMonotone(t, page - 1, size);
    } else {
      MulMonotone(page - 1, t - 1, size);
    }
  }

  /** `s.slice((page - 1) * size, page * size)`. */
  function PageSlice<T>(s: seq<T>, page: PageNumber, size: nat): (r: seq<T>)
    requires size > 0
    ensures |r| <= size
    ensures page > TotalPages(|s|, size) <==> r == []
    ensures |r| > 0 ==> PageStart(page, size) + |r| <= |s|
    ensures page <= TotalPages(|s|, size) ==> |r| == Min(size, |s| - PageStart(page, size))
    ensures forall i :: 0 <= i < |r| ==> r[i] == s[PageStart(page, size) + i]
  {
    var start := PageStart(page, size);
    PageStartBounds(|s|, page, size);
    if start >= |s| then [] else s[start .. Min(start + size, |s|)]
  }

  /** No row is lost: row i of the list is row i % size of page i / size + 1,
      and that page exists. */
  lemma RowOnItsPage<T>(s: seq<T>, size: nat, i: nat)
    requires size > 0 && i < |s|
    ensures i / size + 1 <= TotalPages(|s|, size)
    ensures i % size < |PageSlice(s, i / size + 1, size)|
    ensures PageSlice(s, i / size + 1, size)[i % size] == s[i]
  {
    var p := i / size + 1;
    assert PageStart(p, size) + i % size == i;
    PageStartBounds(|s|, p, size);
  }

  // ---------------------------------------------------------------------------
  // The whole pipeline

  /** What one render of the table shows. */
  datatype VisiblePage = VisiblePage(
    rows: seq<Booking>,
    totalItems: nat,
    totalPages: nat,
    currentPage: PageNumber)

  function ComputeVisiblePage(s: seq<Booking>, v: ViewState): (p: VisiblePage)
    ensures p.currentPage == v.currentPage
    ensures p.totalItems == |FilterBookings(s, v)|
    ensures (p.totalPages - 1) * ItemsPerPage < p.totalItems <= p.totalPages * ItemsPerPage
    ensures |p.rows| <= ItemsPerPage
    ensures p.currentPage > p.totalPages <==> p.rows == []
    ensures p.currentPage <= p.totalPages ==>
      |p.rows| == Min(ItemsPerPage, p.totalItems - PageStart(p.currentPage, ItemsPerPage))
    ensures forall b :: b in p.rows ==> b in s && Keep(b, v)
    ensures Sorted(p.rows, EffectiveOrder(v))
    ensures |p.rows| > 0 ==> PageStart(p.currentPage, ItemsPerPage) + |p.rows| <= |Arrange(s, v)|
    ensures forall i :: 0 <= i < |p.rows| ==>
      p.rows[i] == Arrange(s, v)[PageStart(p.currentPage, ItemsPerPage) + i]
  {
    var arranged := Arrange(s, v);
    ArrangeIsSortedFilter(s, v);
    var rows := PageSlice(arranged, v.currentPage, ItemsPerPage);
    VisiblePage(rows, |FilterBookings(s, v)|, TotalPages(|arranged|, ItemsPerPage), v.currentPage)
  }
}

=== FILE: pagination.dfy ===
/** The pagination bar under the bookings table: a previous button, numbered
    buttons for the first page, the last page and the pages next to the current
    one, an ellipsis for a skipped page two away from the current one, and a
    next button. The markup becomes a list of control tokens. */
module Pagination {

  datatype Control =
    | PrevButton(target: int, disabled: bool)
    | PageButton(page: int, active: bool)
      /** Rendered as "..." standing for the one skipped page `page`. */
    | Ellipsis(page: int)
    | NextButton(target: int, disabled: bool)

  /** Pages that get a numbered button. */
  predicate InWindow(i: int, current: int, total: int) {
    i == 1 || i == total || (current - 1 <= i <= current + 1)
  }

  /** Pages replaced by an ellipsis. */
  predicate GapAt(i: int, current: int, total: int) {
    !InWindow(i, current, total) && (i == current - 2 || i == current + 2)
  }

  predicate IsPageItem(c: Control) {
    c.PageButton? || c.Ellipsis?
  }

  function Label(c: Control): int {
    match c
    case PageButton(p, _) => p
    case Ellipsis(p) => p
    case _ => 0
  }

  predicate ShowsButton(cs: seq<Control>, p: int) {
    exists k :: 0 <= k < |cs| && cs[k].PageButton? && cs[k].page == p
  }

  predicate ShowsEllipsis(cs: seq<Control>, p: int) {
    exists k :: 0 <= k < |cs| && cs[k].Ellipsis? && cs[k].page == p
  }

  /** Appending a control shows what was shown before plus that control. */
  lemma ShowsAppend(cs: seq<Control>, c: Control)
    ensures forall p :: ShowsButton(cs + [c], p) <==> ShowsButton(cs, p) || (c.PageButton? && c.page == p)
    ensures forall p :: ShowsEllipsis(cs + [c], p) <==> ShowsEllipsis(cs, p) || (c.Ellipsis? && c.page == p)
  {
    var ds := cs + [c];
    assert ds[|cs|] == c;
    forall p | ShowsButton(cs, p)
      ensures ShowsButton(ds, p)
    {
      var k :| 0 <= k < |cs| && cs[k].PageButton? && cs[k].page == p;
      assert ds[k] == cs[k];
    }
    forall p | ShowsEllipsis(cs, p)
      ensures ShowsEllipsis(ds, p)
    {
      var k :| 0 <= k < |cs| && cs[k].Ellipsis? && cs[k].page == p;
      assert ds[k] == cs[k];
    }
    forall p | ShowsButton(ds, p) && !(c.PageButton? && c.page == p)
      ensures ShowsButton(cs, p)
    {
      var k :| 0 <= k < |ds| && ds[k].PageButton? && ds[k].page == p;
      assert k < |cs| && ds[k] == cs[k];
    }
    forall p | ShowsEllipsis(ds, p) && !(c.Ellipsis? && c.page == p)
      ensures ShowsEllipsis(cs, p)
    {
      var k :| 0 <= k < |ds| && ds[k].Ellipsis? && ds[k].page == p;
      assert k < |cs| && ds[k] == cs[k];
    }
  }

  /** Wrapping page items between two buttons that are not page items shows
      the same numbered buttons and ellipses. */
  lemma ShowsWrapped(items: seq<Control>, first: Control, last: Control)
    requires !IsPageItem(first) && !IsPageItem(last)
    ensures forall p :: ShowsButton([first] + items + [last], p) <==> ShowsButton(items, p)
    ensures forall p :: ShowsEllipsis([first] + items + [last], p) <==> ShowsEllipsis(items, p)
  {
    var cs := [first] + items + [last];
    forall p | ShowsButton(items, p)
      ensures ShowsButton(cs, p)
    {
      var k :| 0 <= k < |items| && items[k].PageButton? && items[k].page == p;
      assert cs[k + 1] == items[k];
    }
    forall p | ShowsEllipsis(items, p)
      ensures ShowsEllipsis(cs, p)
    {
      var k :| 0 <= k < |items| && items[k].Ellipsis? && items[k].page == p;
      assert cs[k + 1] == items[k];
    }
    forall p | ShowsButton(cs, p)
      ensures ShowsButton(items, p)
    {
      var k :| 0 <= k < |cs| && cs[k].PageButton? && cs[k].page == p;
      assert 0 < k < |cs| - 1 && cs[k] == items[k - 1];
    }
    forall p | ShowsEllipsis(cs, p)
      ensures ShowsEllipsis(items, p)
    {
      var k :| 0 <= k < |cs| && cs[k].Ellipsis? && cs[k].page == p;
      assert 0 < k < |cs| - 1 && cs[k] == items[k - 1];
    }
  }

  /** The loop over the page numbers: a numbered button for each page in the
      window, an ellipsis for each skipped page two away from the current one. */
  method PageItems(totalPages: int, currentPage: int) returns (items: seq<Control>)
    ensures forall k :: 0 <= k < |items| ==> IsPageItem(items[k])
    ensures forall p :: ShowsButton(items, p) <==> 1 <= p <= totalPages && InWindow(p, currentPage, totalPages)
    ensures forall p :: ShowsEllipsis(items, p) <==> 1 <= p <= totalPages && GapAt(p, currentPage, totalPages)
    ensures forall k :: 0 <= k < |items| && items[k].PageButton? ==>
      items[k].active == (items[k].page == currentPage)
    ensures forall j, k :: 0 <= j < k < |items| ==> Label(items[j]) < Label(items[k])
  {
    items := [];
    var i := 1;
    while i <= totalPages
      invariant 1 <= i && (i == 1 || i <= totalPages + 1)
      invariant forall k :: 0 <= k < |items| ==> IsPageItem(items[k]) && 1 <= Label(items[k]) < i
      invariant forall p :: ShowsButton(items, p) <==> 1 <= p < i && InWindow(p, currentPage, totalPages)
      invariant forall p :: ShowsEllipsis(items, p) <==> 1 <= p < i && GapAt(p, currentPage, totalPages)
      invariant forall k :: 0 <= k < |items| && items[k].PageButton? ==>
        items[k].active == (items[k].page == currentPage)
      invariant forall j, k :: 0 <= j < k < |items| ==> Label(items[j]) < Label(items[k])
    {
      if InWindow(i, currentPage, totalPages) {
        ShowsAppend(items, PageButton(i, i == currentPage));
        items := items + [PageButton(i, i == currentPage)];
      } else if i == currentPage - 2 || i == currentPage + 2 {
        ShowsAppend(items, Ellipsis(i));
        items := items + [Ellipsis(i)];
      }
      i := i + 1;
    }
  }

  /** The controls for `totalPages` pages with `currentPage` current. */
  method RenderPagination(totalPages: int, currentPage: int) returns (controls: seq<Control>)
    ensures totalPages <= 1 ==> controls == []
    ensures totalPages > 1 ==>
      && |controls| >= 2
      && controls[0] == PrevButton(currentPage - 1, currentPage == 1)
      && controls[|controls| - 1] == NextButton(currentPage + 1, currentPage == totalPages)
    ensures forall k :: 0 < k < |controls| - 1 ==> IsPageItem(controls[k])
    ensures forall p ::
      ShowsButton(controls, p) <==> totalPages > 1 && 1 <= p <= totalPages && InWindow(p, currentPage, totalPages)
    ensures forall p ::
      ShowsEllipsis(controls, p) <==> totalPages > 1 && 1 <= p <= totalPages && GapAt(p, currentPage, totalPages)
    ensures forall k :: 0 <= k < |controls| && controls[k].PageButton? ==>
      controls[k].active == (controls[k].page == currentPage)
    ensures forall j, k :: 0 < j < k < |controls| - 1 ==> Label(controls[j]) < Label(controls[k])
  {
    if totalPages <= 1 {
      return [];
    }
    var items := PageItems(totalPages, currentPage);
    var prev := PrevButton(currentPage - 1, currentPage == 1);
    var next := NextButton(currentPage + 1, currentPage == totalPages);
    ShowsWrapped(items, prev, next);
    controls := [prev] + items + [next];
    assert forall k :: 0 < k < |controls| - 1 ==> controls[k] == items[k - 1];
  }
}

=== FILE: request_handler.dfy ===
/** The PHP request handler: `Database::searchBookings` assembles a
    parameterised SQL query, a bind-type string and a parameter list from a
    search term, a status and a date; the POST handler dispatches on the
    `action` field. Running the statements is left to the database, so each
    database call's boolean outcome is a parameter. */
module RequestHandler {
  import opened Strings

  /** PHP's `empty()` on a string: both "" and "0" are empty. */
  predicate PhpEmpty(s: string) {
    s == "" || s == "0"
  }

  /** Literal SQL text, which never holds a `?` of its own. */
  type Literal = s: string | '?' !in s witness ""

  /** A piece of SQL text: literal text or one `?` placeholder. Statements
      are kept as lists of pieces so that placeholders can be counted. */
  datatype Piece = Text(text: Literal) | Hole

  const SelectAll: seq<Piece> := [Text("SELECT * FROM bookings WHERE 1=1")]

  // The literal parts of the search clause.
  const IdLike: Literal := " AND (id LIKE "
  const NameLike: Literal := " OR name LIKE "
  const EmailLike: Literal := " OR email LIKE "
  const PhoneLike: Literal := " OR phone LIKE "
  const ServiceLike: Literal := " OR service LIKE "

  /** ` AND (id LIKE ? OR name LIKE ? OR email LIKE ? OR phone LIKE ? OR service LIKE ?)` */
  const SearchCondition: seq<Piece> :=
    [Text(IdLike), Hole, Text(NameLike), Hole, Text(EmailLike), Hole,
     Text(PhoneLike), Hole, Text(ServiceLike), Hole, Text(")")]
  const StatusCondition: seq<Piece> := [Text(" AND status = "), Hole]
  const DateCondition: seq<Piece> := [Text(" AND date = "), Hole]
  const NewestFirst: seq<Piece> := [Text(" ORDER BY created_at DESC")]

  /** The SQL text the pieces spell. */
  function Render(sql: seq<Piece>): string
    decreases |sql|
  {
    if |sql| == 0 then ""
    else (match sql[0] case Text(t) => t case Hole => "?") + Render(sql[1..])
  }

  /** The rendered SQL has exactly one `?` per placeholder piece. */
  lemma {:induction false} RenderCountsHoles(sql: seq<Piece>)
    ensures multiset(Render(sql))['?'] == Placeholders(sql)
    decreases |sql|
  {
    if |sql| > 0 {
      assert sql == [sql[0]] + sql[1..];
      RenderCountsHoles(sql[1..]);
      var head := match sql[0] case Text(t) => t case Hole => "?";
      assert Render(sql) == head + Render(sql[1..]);
      assert multiset(Render(sql)) == multiset(head) + multiset(Render(sql[1..]));
      assert multiset(sql) == multiset([sql[0]]) + multiset(sql[1..]);
    }
  }

  /** A prepared statement: its SQL, the `bind_param` type string and the
      values bound to its placeholders. */
  datatype Query = Query(sql: seq<Piece>, types: string, params: seq<string>)

  /** Number of `?` placeholders in a statement. */
  function Placeholders(sql: seq<Piece>): nat {
    multiset(sql)[Hole]
  }

  /** The statement can be bound: one type letter per value, every value a
      string, and one value per placeholder. */
  predicate WellBound(q: Query) {
    && |q.types| == |q.params| == Placeholders(q.sql)
    && forall i :: 0 <= i < |q.types| ==> q.types[i] == 's'
  }

  lemma SearchConditionPlaceholders()
    ensures Placeholders(SearchCondition) == 5
  {
  }

  /** Appending clauses adds their placeholders. */
  lemma PlaceholdersAppend(a: seq<Piece>, b: seq<Piece>)
    ensures Placeholders(a + b) == Placeholders(a) + Placeholders(b)
  {
  }

  /** Appending a clause with as many string values as placeholders keeps a
      statement bindable. */
  lemma WellBoundAppend(q: Query, sql: seq<Piece>, types: string, params: seq<string>)
    requires WellBound(q)
    requires |types| == |params| == Placeholders(sql)
    requires forall i :: 0 <= i < |types| ==> types[i] == 's'
    ensures WellBound(Query(q.sql + sql, q.types + types, q.params + params))
  {
    PlaceholdersAppend(q.sql, sql);
    var t := q.types + types;
    forall i | 0 <= i < |t|
      ensures t[i] == 's'
    {
      if i >= |q.types| {
        assert t[i] == types[i - |q.types|];
      }
    }
  }

  function SearchPattern(term: string): string {
    "%" + term + "%"
  }

  // The four appends of `searchBookings`, in source order.

  function AddSearch(q: Query, term: string): (r: Query)
    requires WellBound(q)
    ensures WellBound(r)
    ensures PhpEmpty(term) ==> r == q
    ensures r.sql == q.sql + SearchPart(term)
    ensures r.params == q.params + SearchValues(term)
  {
    SearchConditionPlaceholders();
    WellBoundAppend(q, SearchCondition, Repeat('s', 5), Repeat5(SearchPattern(term)));
    if PhpEmpty(term) then q
    else Query(q.sql + SearchCondition, q.types + Repeat('s', 5), q.params + Repeat5(SearchPattern(term)))
  }

  function Repeat5(p: string): (r: seq<string>)
    ensures |r| == 5 && forall i :: 0 <= i < 5 ==> r[i] == p
  {
    [p, p, p, p, p]
  }

  function AddStatus(q: Query, status: string): (r: Query)
    requires WellBound(q)
    ensures WellBound(r)
    ensures status == "all" ==> r == q
    ensures r.sql == q.sql + StatusPart(status)
    ensures r.params == q.params + StatusValues(status)
  {
    WellBoundAppend(q, StatusCondition, "s", [status]);
    if status == "all" then q
    else Query(q.sql + StatusCondition, q.types + "s", q.params + [status])
  }

  function AddDate(q: Query, date: string): (r: Query)
    requires WellBound(q)
    ensures WellBound(r)
    ensures PhpEmpty(date) ==> r == q
    ensures r.sql == q.sql + DatePart(date)
    ensures r.params == q.params + DateValues(date)
  {
    WellBoundAppend(q, DateCondition, "s", [date]);
    if PhpEmpty(date) then q
    else Query(q.sql + DateCondition, q.types + "s", q.params + [date])
  }

  /** The search clause and its five values, present only for a term PHP does
      not consider empty. */
  function SearchPart(term: string): seq<Piece> {
    if PhpEmpty(term) then [] else SearchCondition
  }

  function StatusPart(status: string): seq<Piece> {
    if status == "all" then [] else StatusCondition
  }

  function DatePart(date: string): seq<Piece> {
    if PhpEmpty(date) then [] else DateCondition
  }

  /** The values bound to those clauses: the term wrapped in `%` once per
      searched column, the status, the date. */
  function SearchValues(term: string): seq<string> {
    if PhpEmpty(term) then [] else Repeat5(SearchPattern(term))
  }

  function StatusValues(status: string): seq<string> {
    if status == "all" then [] else [status]
  }

  function DateValues(date: string): seq<string> {
    if PhpEmpty(date) then [] else [date]
  }

  /** `Database::searchBookings` without the execution. */
  function SearchQuery(term: string, status: string, date: string): (q: Query)
    ensures q.sql == SelectAll + SearchPart(term) + StatusPart(status) + DatePart(date) + NewestFirst
    ensures q.params == SearchValues(term) + StatusValues(status) + DateValues(date)
  {
    var q0 := Query(SelectAll, "", []);
    assert WellBound(q0);
    var q1 := AddSearch(q0, term);
    assert q1.params == SearchValues(term);
    var q2 := AddStatus(q1, status);
    var q3 := AddDate(q2, date);
    assert q3.params == SearchValues(term) + StatusValues(status) + DateValues(date);
    assert Placeholders(NewestFirst) == 0;
    PlaceholdersAppend(q3.sql, NewestFirst);
    Query(q3.sql + NewestFirst, q3.types, q3.params)
  }

  /** The search statement can always be bound: one `s` per value and one
      value per placeholder. */
  lemma SearchQueryBindable(term: string, status: string, date: string)
    ensures WellBound(SearchQuery(term, status, date))
  {
  }

  /** The rendered search statement has one `?` per bound value. */
  lemma SearchStatementMarks(term: string, status: string, date: string)
    ensures var q := SearchQuery(term, status, date);
      multiset(Render(q.sql))['?'] == |q.params|
  {
    SearchQueryBindable(term, status, date);
    RenderCountsHoles(SearchQuery(term, status, date).sql);
  }

  /** A request with only `action` set runs the unfiltered query. */
  lemma SearchWithoutFilters()
    ensures SearchQuery("", "all", "") == Query(SelectAll + NewestFirst, "", [])
  {
  }

  /** `empty("0")` holds in PHP, so searching for "0" adds no clause: the
      query is the one built without a term. */
  lemma ZeroTermCountsAsEmpty(status: string, date: string)
    ensures SearchQuery("0", status, date) == SearchQuery("", status, date)
  {
    assert PhpEmpty("0");
  }

  /** Likewise a date "0" adds no clause. */
  lemma ZeroDateCountsAsEmpty(term: string, status: string)
    ensures SearchQuery(term, status, "0") == SearchQuery(term, status, "")
  {
    assert PhpEmpty("0");
  }

  /** Unlike the dashboard's filter, the server applies a search term and a
      date together: both clauses and all six values are present. */
  lemma ServerSearchKeepsDate(term: string, date: string)
    requires !PhpEmpty(term) && !PhpEmpty(date)
    ensures SearchQuery(term, "all", date).sql == SelectAll + SearchCondition + DateCondition + NewestFirst
    ensures SearchQuery(term, "all", date).params == Repeat5(SearchPattern(term)) + [date]
  {
    TermAndDateValues(term, date);
  }

  lemma TermAndDateValues(term: string, date: string)
    requires !PhpEmpty(term) && !PhpEmpty(date)
    ensures SearchPart(term) + StatusPart("all") + DatePart(date) == SearchCondition + DateCondition
    ensures SearchValues(term) + StatusValues("all") + DateValues(date) == Repeat5(SearchPattern(term)) + [date]
  {
  }

  // ---------------------------------------------------------------------------
  // POST dispatch

  /** The actions the handler knows. */
  datatype Action =
    | CreateBooking | GetBookings | UpdateStatus | DeleteBooking
    | GetStats | AdminLogin | SearchBookings

  /** The `case` label of each action. */
  function ActionName(a: Action): string {
    match a
    case CreateBooking => "create_booking"
    case GetBookings => "get_bookings"
    case UpdateStatus => "update_status"
    case DeleteBooking => "delete_booking"
    case GetStats => "get_stats"
    case AdminLogin => "admin_login"
    case SearchBookings => "search_bookings"
  }

  /** The `switch` on the action name: the action whose label it is, or none
      for the `default` branch. */
  function ParseAction(name: string): (r: Option<Action>)
    ensures r.Some? ==> ActionName(r.value) == name
    ensures r.None? <==> forall a :: ActionName(a) != name
  {
    match name
    case "create_booking" => Some(CreateBooking)
    case "get_bookings" => Some(GetBookings)
    case "update_status" => Some(UpdateStatus)
    case "delete_booking" => Some(DeleteBooking)
    case "get_stats" => Some(GetStats)
    case "admin_login" => Some(AdminLogin)
    case "search_bookings" => Some(SearchBookings)
    case _ => None
  }

  /** Reading an action's label back gives the action. */
  lemma ActionNameRoundTrip(a: Action)
    ensures ParseAction(ActionName(a)) == Some(a)
  {
  }

  lemma ActionNamesParse()
    ensures forall a :: ParseAction(ActionName(a)) == Some(a)
  {
    forall a
      ensures ParseAction(ActionName(a)) == Some(a)
    {
      ActionNameRoundTrip(a);
    }
  }

  /** `$_POST[key] ?? fallback`. */
  function Field(post: map<string, string>, key: string, fallback: string): string {
    if key in post then post[key] else fallback
  }

  const AllBookingsQuery := Query([Text("SELECT * FROM bookings")] + NewestFirst, "", [])

  /** The JSON reply: a success flag with a message, or a successful reply
      whose `data` is the result of a query, or the statistics row. */
  datatype Response =
    | Reply(success: bool, message: string)
    | Rows(query: Query)
    | StatsRow

  /** The search fields of a request, with the handler's defaults. */
  function SearchRequest(post: map<string, string>): Query {
    SearchQuery(Field(post, "search_term", ""), Field(post, "status", "all"), Field(post, "date", ""))
  }

  /** One branch of the `switch`. `dbOk` is what the one database call the
      action makes returns (statement executed, or password verified). */
  function Run(a: Action, post: map<string, string>, dbOk: bool): (r: Response)
    ensures r.Rows? ==> WellBound(r.query)
    ensures r.Reply? ==> r.success == dbOk
    ensures a == SearchBookings ==> r == Rows(SearchRequest(post))
    ensures a == GetBookings ==> r == Rows(AllBookingsQuery)
    ensures a == GetStats ==> r == StatsRow
    ensures a == CreateBooking ==>
      r == Reply(dbOk, if dbOk then "Booking created successfully" else "Failed to create booking")
    ensures a == UpdateStatus ==>
      r == Reply(dbOk, if dbOk then "Status updated successfully" else "Failed to update status")
    ensures a == DeleteBooking ==>
      r == Reply(dbOk, if dbOk then "Booking deleted successfully" else "Failed to delete booking")
    ensures a == AdminLogin ==>
      r == Reply(dbOk, if dbOk then "Login successful" else "Invalid credentials")
  {
    SearchQueryBindable(Field(post, "search_term", ""), Field(post, "status", "all"), Field(post, "date", ""));
    match a
    case CreateBooking =>
      if dbOk then Reply(true, "Booking created successfully") else Reply(false, "Failed to create booking")
    case GetBookings => Rows(AllBookingsQuery)
    case UpdateStatus =>
      if dbOk then Reply(true, "Status updated successfully") else Reply(false, "Failed to update status")
    case DeleteBooking =>
      if dbOk then Reply(true, "Booking deleted successfully") else Reply(false, "Failed to delete booking")
    case GetStats => StatsRow
    case AdminLogin =>
      if dbOk then Reply(true, "Login successful") else Reply(false, "Invalid credentials")
    case SearchBookings => Rows(SearchRequest(post))
  }

  /** The POST handler: the action named by `action` (missing counts as ""),
      or `Invalid action` when no action has that name. */
  function HandlePost(post: map<string, string>, dbOk: bool): (r: Response)
    ensures (forall a :: ActionName(a) != Field(post, "action", "")) ==> r == Reply(false, "Invalid action")
    ensures forall a :: ActionName(a) == Field(post, "action", "") ==> r == Run(a, post, dbOk)
  {
    ActionNamesParse();
    match ParseAction(Field(post, "action", ""))
    case None => Reply(false, "Invalid action")
    case Some(a) => Run(a, post, dbOk)
  }
}

=== FILE: sorting.dfy ===
/** The sort step of the dashboard's render pipeline. The source hands a
    three-way comparator to `Array.prototype.sort`, which is stable; here the
    comparator becomes the relation `Before` and the sort is a stable insertion
    sort on sequences. */
module Sorting {
  import opened Bookings

  /** A sort request: the column compared and whether smaller values come first. */
  datatype Order = Order(column: Column, ascending: bool)

  /** The comparator returns a negative number for (a, b): a goes strictly before b. */
  predicate Before(a: Booking, b: Booking, o: Order) {
    if o.ascending then KeyLess(SortKey(a, o.column), SortKey(b, o.column))
    else KeyLess(SortKey(b, o.column), SortKey(a, o.column))
  }

  /** No record is placed after one it must precede. */
  predicate Sorted(s: seq<Booking>, o: Order) {
    forall i, j :: 0 <= i < j < |s| ==> !Before(s[j], s[i], o)
  }

  lemma BeforeAsymmetric(a: Booking, b: Booking, o: Order)
    requires Before(a, b, o)
    ensures !Before(b, a, o)
  {
    var ka, kb := SortKey(a, o.column), SortKey(b, o.column);
    if KeyLess(ka, kb) && KeyLess(kb, ka) {
      KeyLessTransitive(ka, kb, ka);
      KeyLessIrreflexive(ka);
    }
  }

  lemma NotBeforeTransitive(a: Booking, b: Booking, c: Booking, o: Order)
    requires !Before(b, a, o) && !Before(c, b, o)
    ensures !Before(c, a, o)
  {
    var ka, kb, kc := SortKey(a, o.column), SortKey(b, o.column), SortKey(c, o.column);
    if o.ascending {
      KeyNotLessTransitive(ka, kb, kc);
    } else {
      KeyNotLessTransitive(kc, kb, ka);
    }
  }

  /** Records of equal key never precede one another. */
  lemma EqualKeysNotBefore(a: Booking, b: Booking, o: Order)
    requires SortKey(a, o.column) == SortKey(b, o.column)
    ensures !Before(a, b, o)
  {
    KeyLessIrreflexive(SortKey(a, o.column));
  }

  /** Places x after the records that must precede it and before all others,
      so x also stays ahead of records with an equal key. */
  function Insert(x: Booking, s: seq<Booking>, o: Order): seq<Booking>
    decreases |s|
  {
    if |s| == 0 then [x]
    else if Before(s[0], x, o) then [s[0]] + Insert(x, s[1..], o)
    else [x] + s
  }

  /** Stable insertion sort: the head is inserted into the sorted tail. */
  function SortBookings(s: seq<Booking>, o: Order): seq<Booking>
    decreases |s|
  {
    if |s| == 0 then [] else Insert(s[0], SortBookings(s[1..], o), o)
  }

  lemma {:induction false} InsertPermutes(x: Booking, s: seq<Booking>, o: Order)
    ensures multiset(Insert(x, s, o)) == multiset(s) + multiset{x}
    decreases |s|
  {
    if |s| > 0 && Before(s[0], x, o) {
      InsertPermutes(x, s[1..], o);
      assert s == [s[0]] + s[1..];
    }
  }

  lemma {:induction false} InsertSorted(x: Booking, s: seq<Booking>, o: Order)
    requires Sorted(s, o)
    ensures Sorted(Insert(x, s, o), o)
    decreases |s|
  {
    if |s| == 0 {
    } else if Before(s[0], x, o) {
      var rest := Insert(x, s[1..], o);
      InsertSorted(x, s[1..], o);
      InsertPermutes(x, s[1..], o);
      forall j | 0 <= j < |rest|
        ensures !Before(rest[j], s[0], o)
      {
        assert rest[j] in multiset(rest);
        if rest[j] == x {
          BeforeAsymmetric(s[0], x, o);
        } else {
          assert rest[j] in multiset(s[1..]);
          var m :| 0 <= m < |s[1..]| && s[1..][m] == rest[j];
          assert s[m + 1] == rest[j];
        }
      }
    } else {
      forall j | 0 <= j < |s|
        ensures !Before(s[j], x, o)
      {
        if j > 0 {
          NotBeforeTransitive(x, s[0], s[j], o);
        }
      }
    }
  }

  /** The sort returns its input rearranged. */
  lemma {:induction false} SortPermutes(s: seq<Booking>, o: Order)
    ensures multiset(SortBookings(s, o)) == multiset(s)
    decreases |s|
  {
    if |s| > 0 {
      SortPermutes(s[1..], o);
      InsertPermutes(s[0], SortBookings(s[1..], o), o);
      assert s == [s[0]] + s[1..];
    }
  }

  /** The sort's output is in the requested order. */
  lemma {:induction false} SortSorts(s: seq<Booking>, o: Order)
    ensures Sorted(SortBookings(s, o), o)
    decreases |s|
  {
    if |s| > 0 {
      SortSorts(s[1..], o);
      InsertSorted(s[0], SortBookings(s[1..], o), o);
    }
  }

  lemma SortLength(s: seq<Booking>, o: Order)
    ensures |SortBookings(s, o)| == |s|
  {
    SortPermutes(s, o);
    assert |multiset(SortBookings(s, o))| == |multiset(s)|;
  }

  // ---------------------------------------------------------------------------
  // Stability

  /** The records whose sort key equals k, in their order in s. */
  function WithKey(s: seq<Booking>, c: Column, k: Key): seq<Booking>
    decreases |s|
  {
    if |s| == 0 then []
    else (if SortKey(s[0], c) == k then [s[0]] else []) + WithKey(s[1..], c, k)
  }

  lemma {:induction false} InsertWithKey(x: Booking, s: seq<Booking>, o: Order, k: Key)
    ensures WithKey(Insert(x, s, o), o.column, k)
         == (if SortKey(x, o.column) == k then [x] else []) + WithKey(s, o.column, k)
    decreases |s|
  {
    var c := o.column;
    if |s| == 0 {
    } else if Before(s[0], x, o) {
      InsertWithKey(x, s[1..], o, k);
      if SortKey(x, c) == k && SortKey(s[0], c) == k {
        EqualKeysNotBefore(s[0], x, o);
      }
      assert ([s[0]] + Insert(x, s[1..], o))[1..] == Insert(x, s[1..], o);
    } else {
      assert ([x] + s)[1..] == s;
    }
  }

  /** Stability: among records with the same key the input order survives the
      sort (so ties keep their relative order). */
  lemma {:induction false} SortStable(s: seq<Booking>, o: Order, k: Key)
    ensures WithKey(SortBookings(s, o), o.column, k) == WithKey(s, o.column, k)
    decreases |s|
  {
    if |s| > 0 {
      SortStable(s[1..], o, k);
      InsertWithKey(s[0], SortBookings(s[1..], o), o, k);
    }
  }
}

=== FILE: strings.dfy ===
/** Character and string helpers shared by the dashboard and the public forms:
    ASCII case folding (the model of `toLowerCase`), substring search (the model
    of `String.prototype.includes`), the lexicographic order JavaScript's `<`
    uses on strings, first-occurrence search, and decimal rendering of naturals. */
module Strings {

  datatype Option<+T> = None | Some(value: T)

  predicate IsDigit(c: char) {
    '0' <= c <= '9'
  }

  predicate AllDigits(s: string) {
    forall i :: 0 <= i < |s| ==> IsDigit(s[i])
  }

  // ---------------------------------------------------------------------------
  // Case folding

  predicate IsUpper(c: char) {
    'A' <= c <= 'Z'
  }

  function LowerChar(c: char): char {
    if IsUpper(c) then (c as int + 32) as char else c
  }

  /** ASCII lower-casing: every upper-case letter is replaced by its lower-case
      partner, every other character is kept. */
  function Lower(s: string): (r: string)
    ensures |r| == |s|
    ensures forall i :: 0 <= i < |r| ==> !IsUpper(r[i])
    ensures forall i :: 0 <= i < |r| ==> (IsUpper(s[i]) || r[i] == s[i])
    ensures forall i :: 0 <= i < |s| && IsUpper(s[i]) ==>
      'a' <= r[i] <= 'z' && r[i] as int - 'a' as int == s[i] as int - 'A' as int
  {
    seq(|s|, i requires 0 <= i < |s| => LowerChar(s[i]))
  }

  lemma LowerIdempotent(s: string)
    ensures Lower(Lower(s)) == Lower(s)
  {
  }

  // ---------------------------------------------------------------------------
  // Substring search

  predicate IsPrefix(p: string, s: string) {
    |p| <= |s| && s[..|p|] == p
  }

  /** `needle` occurs in `haystack` starting at position `i`. */
  predicate OccursAt(haystack: string, needle: string, i: int) {
    0 <= i && i + |needle| <= |haystack| && haystack[i..i + |needle|] == needle
  }

  /** Executable substring test: try every start position from the left. */
  predicate Contains(haystack: string, needle: string)
    decreases |haystack|
  {
    IsPrefix(needle, haystack) || (|haystack| > 0 && Contains(haystack[1..], needle))
  }

  /** The scan finds the needle exactly when it occurs at some position. */
  lemma {:induction false} ContainsIffOccurs(haystack: string, needle: string)
    ensures Contains(haystack, needle) <==> exists i :: OccursAt(haystack, needle, i)
    decreases |haystack|
  {
    if IsPrefix(needle, haystack) {
      assert OccursAt(haystack, needle, 0);
    } else if |haystack| == 0 {
    } else {
      var tail := haystack[1..];
      ContainsIffOccurs(tail, needle);
      if Contains(tail, needle) {
        var i :| OccursAt(tail, needle, i);
        assert haystack[i + 1..i + 1 + |needle|] == tail[i..i + |needle|];
        assert OccursAt(haystack, needle, i + 1);
      } else {
        forall i | OccursAt(haystack, needle, i)
          ensures false
        {
          if i > 0 {
            assert tail[i - 1..i - 1 + |needle|] == haystack[i..i + |needle|];
            assert OccursAt(tail, needle, i - 1);
          }
        }
      }
    }
  }

  // ---------------------------------------------------------------------------
  // Lexicographic order

  /** `a < b` on JavaScript strings: the first differing character decides, and
      a proper prefix comes first. */
  predicate StrLess(a: string, b: string)
    decreases |a|
  {
    if |b| == 0 then false
    else if |a| == 0 then true
    else if a[0] != b[0] then a[0] < b[0]
    else StrLess(a[1..], b[1..])
  }

  lemma {:induction false} StrLessIrreflexive(a: string)
    ensures !StrLess(a, a)
    decreases |a|
  {
    if |a| > 0 {
      StrLessIrreflexive(a[1..]);
    }
  }

  lemma {:induction false} StrLessTransitive(a: string, b: string, c: string)
    requires StrLess(a, b) && StrLess(b, c)
    ensures StrLess(a, c)
    decreases |a|
  {
    if |a| > 0 && a[0] == b[0] && b[0] == c[0] {
      StrLessTransitive(a[1..], b[1..], c[1..]);
    }
  }

  lemma {:induction false} StrLessTotal(a: string, b: string)
    ensures a == b || StrLess(a, b) || StrLess(b, a)
    decreases |a|
  {
    if |a| > 0 && |b| > 0 && a[0] == b[0] {
      StrLessTotal(a[1..], b[1..]);
      if a[1..] == b[1..] {
        assert a == [a[0]] + a[1..] && b == [b[0]] + b[1..];
      }
    }
  }

  // ---------------------------------------------------------------------------
  // First occurrence of a character

  /** The position of the first c in s, with "not found" as None. */
  function IndexOf(s: string, c: char): (r: Option<nat>)
    ensures r.Some? ==> r.value < |s| && s[r.value] == c
    ensures r.Some? ==> forall j :: 0 <= j < r.value ==> s[j] != c
    ensures r.None? <==> c !in s
    decreases |s|
  {
    if |s| == 0 then None
    else if s[0] == c then Some(0)
    else match IndexOf(s[1..], c)
      case None => None
      case Some(k) => Some(k + 1)
  }

  // ---------------------------------------------------------------------------
  // Decimal numerals

  function DigitChar(d: nat): (c: char)
    requires d < 10
    ensures IsDigit(c)
  {
    ('0' as int + d) as char
  }

  function DigitValue(c: char): (d: nat)
    requires IsDigit(c)
    ensures d < 10
  {
    c as int - '0' as int
  }

  function Pow10(k: nat): (p: nat)
    ensures p >= 1
  {
    if k == 0 then 1 else 10 * Pow10(k - 1)
  }

  /** `String(n)` for a natural number: shortest decimal numeral. */
  function DecimalString(n: nat): (r: string)
    ensures 1 <= |r|
    ensures AllDigits(r)
    ensures |r| > 1 ==> r[0] != '0'
    decreases n
  {
    if n < 10 then [DigitChar(n)] else DecimalString(n / 10) + [DigitChar(n % 10)]
  }

  /** The number a string of decimal digits denotes. */
  function DecimalValue(s: string): nat
    requires AllDigits(s)
    decreases |s|
  {
    if |s| == 0 then 0 else 10 * DecimalValue(s[..|s| - 1]) + DigitValue(s[|s| - 1])
  }

  lemma {:induction false} DecimalRoundTrip(n: nat)
    ensures DecimalValue(DecimalString(n)) == n
    decreases n
  {
    var r := DecimalString(n);
    if n >= 10 {
      DecimalRoundTrip(n / 10);
      assert r[..|r| - 1] == DecimalString(n / 10);
    }
  }

  /** Leading zeros do not change the value of a numeral. */
  lemma {:induction false} LeadingZeroValue(s: string)
    requires AllDigits(s)
    ensures DecimalValue("0" + s) == DecimalValue(s)
    decreases |s|
  {
    if |s| > 0 {
      var init := s[..|s| - 1];
      LeadingZeroValue(init);
      assert ("0" + s)[..|"0" + s| - 1] == "0" + init;
    }
  }

  /** A number below 10^k has a numeral of at most k digits. */
  lemma {:induction false} DecimalLength(n: nat, k: nat)
    requires 1 <= k && n < Pow10(k)
    ensures |DecimalString(n)| <= k
    decreases k
  {
    if n >= 10 {
      assert k >= 2;
      DecimalLength(n / 10, k - 1);
    }
  }

  /** `c.repeat(n)` for one character. */
  function Repeat(c: char, n: nat): (r: string)
    ensures |r| == n
    ensures forall i :: 0 <= i < n ==> r[i] == c
  {
    seq(n, _ => c)
  }

  /** `s.padStart(width, c)` with a one-character fill. */
  function PadStart(s: string, width: nat, c: char): (r: string)
    ensures |r| == if |s| < width then width else |s|
    ensures r[|r| - |s|..] == s
    ensures forall i :: 0 <= i < |r| - |s| ==> r[i] == c
  {
    if |s| < width then Repeat(c, width - |s|) + s else s
  }

  /** Zero padding keeps the value of a numeral. */
  lemma {:induction false} ZeroPadValue(s: string, width: nat)
    requires AllDigits(s)
    ensures AllDigits(PadStart(s, width, '0'))
    ensures DecimalValue(PadStart(s, width, '0')) == DecimalValue(s)
    decreases width - |s|
  {
    if |s| < width {
      var zs := "0" + s;
      LeadingZeroValue(s);
      ZeroPadValue(zs, width);
      assert PadStart(zs, width, '0') == PadStart(s, width, '0');
    }
  }

  /** `s.slice(-k)`: the last k characters, or all of s when it is shorter. */
  function LastChars(s: string, k: nat): (r: string)
    ensures |r| == if |s| < k then |s| else k
    ensures r == s[|s| - |r|..]
  {
    if |s| <= k then s else s[|s| - k..]
  }
}
